=== FILE: README.md ===
# Drone client: telemetry decoder, decision policy and command session

A Dafny model of the control client `DroneClient` in `optimizer.py`. The client
talks to a flight simulator over a websocket. It sends a command, reads the
reply, decodes the telemetry string in the reply, and picks the next command
from the decoded readings. The model covers the three parts of that loop that
hold logic:

- **Decoder** (`parse_telemetry`, module `Telemetry`). It splits the wire string
  `X-{x}-Y-{y}-BAT-{bat}-GYR-[gx,gy,gz]-WIND-{w}-DUST-{d}-SENS-{status}` on `-` and
  reads the tokens as key/value pairs. Modules `Text` and `Numbers` model the Python
  string operations it relies on: `str.split`, `str.strip`, and the decimal part of
  `float()`.
- **Policy** (`get_optimal_action` and `basealtitude`, module `Policy`). It is a
  threshold table over battery, altitude and sensor status, followed by a
  battery-conservation override. An independent table-driven reference,
  `TableAction`, is proved equal to it on every input.
- **Session** (the counter and reply handling of `send_command`, and the
  `simulation` loop, module `Session`). It is a pure state machine over a finite
  sequence of abstract replies, one per command sent. The websocket is not modelled.

`TelemetryExamples` and `SessionExamples` hold worked instances: a negative value
breaking the pairing, a crash on the first command, an empty telemetry string, and
others.

## Behaviour worth knowing

- `parse_telemetry` raises `ValueError` on a non-numeric `X`/`Y`/`BAT`/`WIND`/`DUST`
  value, and a negative number is one: the split on `-` leaves its value token
  empty. `ParseTelemetry` returns `Option`, with `None` for the raised error, and the
  simulation ends with `TelemetryError`.
- The decoder fills in no defaults: a key that does not occur is absent from the
  dictionary. The defaults battery 100, altitude 0 and status GREEN are applied only
  by `get_optimal_action`.
- The gyroscope list has no fixed length. It holds every non-blank piece's value
  when all of them convert, and is `[0.0, 0.0, 0.0]` as a whole when any one does not.
- The sensor status is kept as raw text. The policy has branches for `GREEN`,
  `YELLOW` and `RED`; any other text keeps the default action.
- Apart from the crash check in `send_command`, the answer to the first command is
  checked only for a `telemetry` key, not for its status.
- In the bands where no branch sets `altitude_change`, the policy sends the default
  value 150, not 0.
- `float()` and `str.strip()` disagree on whitespace. The four ASCII separator
  characters U+001C..U+001F are removed by `strip()` but make `float()` fail.

## Model

| member | source | states |
|---|---|---|
| Text.Split | optimizer.py:101 | `str.split` on one character: always at least one piece, no piece contains the separator, and joining the pieces with it gives back the string |
| Text.SplitJoin | optimizer.py:101 | separator-free pieces are recovered exactly from their join, so the split is the only such decomposition |
| Text.Strip | optimizer.py:116 | `strip(chars)`: the result is a contiguous slice, everything cut on either side is in the set, and its two ends are not |
| Text.StripExcludes | optimizer.py:116 | stripping only removes characters, so a character absent from the input is absent from the result |
| Text.StripSurrounded | optimizer.py:116 | stripping removes exactly the surrounding characters of the set around a core whose two ends are outside it |
| Numbers.ParseReal | optimizer.py:110 | `float(value)` on the decimal grammar: whitespace `float()` ignores is stripped first; a text without a minus sign never converts to a negative number |
| Numbers.ParseSigned | optimizer.py:110 | the stripped text: an optional sign before an unsigned decimal; without a minus sign the value is never negative |
| Numbers.ParseRealRejects | optimizer.py:110 | any character other than a digit, '.', a sign or ignorable whitespace, wherever it sits, makes the conversion fail |
| Numbers.ParseRealStripped | optimizer.py:110 | a text starting with a sign and ending with a digit converts as the rest does, under that sign |
| Numbers.ParseRealSigned | optimizer.py:110 | `+u` converts to the value of `u`, and `-u` to its negation; if `u` fails, both fail |
| Numbers.ParseRealSign | optimizer.py:110 | the two signs spelled out: `float("+u") == float(u)` and `float("-u") == -float(u)` |
| Numbers.ParseRealSurrounded | optimizer.py:110 | whitespace `float()` ignores may surround a number without changing its value or its failure |
| Numbers.ParseUnsigned | optimizer.py:110 | the unsigned part of `float()`: never a negative value; `UnsignedShape` says exactly which texts it accepts, and `ParseRealOfNat` and `ParseRealDecimal` give the values |
| Numbers.UnsignedShape | optimizer.py:110 | an unsigned decimal converts if and only if it is a non-empty digit string or `w.f` with digit strings `w` and `f`, not both empty; so `"1.2.3"`, `"."`, `"+"` and `""` fail |
| Numbers.UnsignedChars | optimizer.py:110 | an unsigned decimal that converts consists of digits and '.' only |
| Numbers.SeparatorIsNotFloatSpace | optimizer.py:110 | `str.strip()` removes U+001C, but a number led by it does not convert |
| Numbers.ParseRealOfNat | optimizer.py:110 | round trip: `float(str(n)) == n` for every natural number |
| Numbers.ParseRealDecimal | optimizer.py:110 | `float("w.f")` is `w + f / 10^len(f)` for digit strings `w` and `f`, either of them possibly empty (`".5"`, `"3."`) but not both |
| Telemetry.FieldOfKey | optimizer.py:109-126 | exactly the seven keys `X`, `Y`, `BAT`, `GYR`, `WIND`, `DUST`, `SENS` are recognised, each naming one dictionary entry; it is the inverse of `KeyOf` |
| Telemetry.BlankIffStripsEmpty | optimizer.py:118 | a piece is blank, all whitespace, exactly when `v.strip()` is empty |
| Telemetry.NonBlank | optimizer.py:118 | the filter `if v.strip()`: no kept piece is blank and none is added |
| Telemetry.NonBlankKeeps | optimizer.py:118 | every kept piece is a non-blank input piece, and every non-blank input piece is kept |
| Telemetry.NonBlankAppend | optimizer.py:118 | the filter keeps the order: filtering a concatenation filters each part |
| Telemetry.NonBlankAllKept | optimizer.py:118 | a list without blank pieces passes the filter unchanged |
| Telemetry.ParseAllSpec | optimizer.py:117-120 | converting the list succeeds exactly when every piece converts, and then holds every piece's value in order |
| Telemetry.ParseGyro | optimizer.py:115-120 | the vector has one value per non-blank piece, or is `[0.0, 0.0, 0.0]`; `GyroAtomic` says which |
| Telemetry.GyroAtomic | optimizer.py:115-120 | the gyroscope vector holds every non-blank piece's value, with no forced length, or is `[0.0, 0.0, 0.0]` as a whole if any piece fails; never a partial vector |
| Telemetry.GyroNonNegative | optimizer.py:115-120 | a gyroscope text without a minus sign yields no negative component |
| Telemetry.Decode | optimizer.py:109-126 | `GYR` and `SENS` values never fail, the numeric keys may; a decoded entry has the shape of its field (float, list, or raw text) |
| Telemetry.ParsePairs | optimizer.py:104-126 | the loop only adds or overwrites entries, never removes one; `PairsAsEffects` gives its full reading |
| Telemetry.ParseTelemetry | optimizer.py:98-128 | `parse_telemetry`; its contract is carried by `PairsAsEffects`, `ParseFailsIff`, `ParseFieldFromLastPair`, `ParseFieldPresence` and `ParsedValuesNonNegative` |
| Telemetry.EffectAt | optimizer.py:105-126 | a pair is skipped exactly when its key is unknown, aborts exactly when a recognised key's value does not convert, and otherwise writes its own field with the converted value |
| Telemetry.PairsAsEffects | optimizer.py:101-128 | the loop over `range(0, len(parts), 2)` is the in-order application of the pairs' effects |
| Telemetry.ApplyFailsIff | optimizer.py:104-126 | applying the effects fails exactly when one of them aborts |
| Telemetry.ParseFailsIff | optimizer.py:101-128 | `parse_telemetry` raises exactly when some pair has a recognised key whose value is not a number, wherever that pair sits |
| Telemetry.ParseFieldFromLastPair | optimizer.py:104-126 | a successfully decoded field holds the value of the last pair naming it: a repeated key keeps its last value |
| Telemetry.ParseFieldPresence | optimizer.py:102-128 | a field is present exactly when some pair names it; no default is filled in |
| Telemetry.ParsedValuesNonNegative | optimizer.py:101 | since the string is split on `-`, no decoded number or gyroscope component is negative |
| TelemetryExamples.NegativeNumberFails | optimizer.py:101-114 | `X--3` (and the same for `Y`, `BAT`, `WIND`, `DUST`): the value token is empty, so the parse fails |
| TelemetryExamples.TrailingTokenIgnored | optimizer.py:104-105 | an odd trailing token, such as the one a minus sign leaves behind, is ignored |
| Policy.Decide | optimizer.py:142-193 | movement is always `fwd` and speed is in {1, 2, 3, 5}; battery below 20 forces speed 1; an unrecognised status keeps the default change of 150 |
| Policy.StatusAction | optimizer.py:142-184 | the status branches: always `fwd` at a speed in {1, 2, 3, 5}; YELLOW and RED never above 3; a GREEN step off 150 is at most 5 either way; a YELLOW or RED change is a descent, the careful ascent of 0.2, or the default 150 |
| Policy.Conserve | optimizer.py:186-193 | the override: no change at battery 20 or more; below it speed 1, other statuses keep their change, and a GREEN step off 150 is at most 3 either way |
| Policy.GetOptimalAction | optimizer.py:133-140 | no action exactly for an empty dictionary |
| Policy.GreenApproach | optimizer.py:150-193 | GREEN off 150 moves towards 150, never past it, by at most 5 (3 on low battery), and either reaches 150 or moves the full step; at exactly 150 the change is the default 150 |
| Policy.DefaultChangeIff | optimizer.py:143-184 | the change is 150 exactly for GREEN at 150, YELLOW at or below 30, RED within [1.5, 2.5], or an unrecognised status |
| Policy.SpeedMonotone | optimizer.py:156-188 | more battery never gives a lower speed |
| Policy.ActionReadsThreeFields | optimizer.py:137-140 | the action depends only on battery, `y_position` and `sensor_status` |
| Policy.ActionDefaults | optimizer.py:138-140 | with none of the three readings, the defaults 100 / 0 / GREEN give speed 5 and a climb of 5 |
| Policy.SpeedRowsRead | optimizer.py:156-184 | the speed table, read row by row, gives the first matching row's speed |
| Policy.ChangeRowsRead | optimizer.py:164-184 | the altitude table, read row by row, gives the first matching row's change |
| Policy.DecideMatchesTable | optimizer.py:149-193 | the branching policy equals the table-driven reference on every input |
| Session.SendCommand | optimizer.py:50-96 | the counter rises once whatever the reply; a closed connection propagates; another exception or a crash gives `None`; a crash stores the metrics and raw final telemetry that are present; any other object is returned unchanged |
| Session.Handle | optimizer.py:63-96 | handling the answer never issues a command or touches the counter; only a closed connection propagates; a crash yields `None`; a non-crash answer leaves the client unchanged |
| Session.FollowsAt | optimizer.py:209-227 | every command after the first follows a reply that let the loop go on, and carries the policy's action on that reply's telemetry |
| Session.TraceExtend | optimizer.py:209-227 | issuing the policy's action on the last decoded reply keeps the counter stamping and the reply/command correspondence |
| Session.Loop | optimizer.py:209-230 | the `while True` loop only appends commands, at most one per remaining reply plus the one awaiting its answer, and the counter rises by one per command |
| Session.LoopTrace | optimizer.py:209-230 | the loop keeps that correspondence to its end |
| Session.LoopTraceSent | optimizer.py:216-227 | a pass that sends the policy's action and reads its answer keeps the correspondence, and so does the rest of the loop |
| Session.Fly | optimizer.py:196-230 | the first command is `(5, 150, 'fwd', 1)`, at most one command per reply plus one is issued, and the counter equals the number issued |
| Session.Simulation | optimizer.py:196-230 | `simulation` with the client's own decoder and policy: the same bounds; `SimulationTrace`, `SimulationEnds` and `SimulationNoAction` give the rest |
| Session.FlyTrace | optimizer.py:196-230 | the whole simulation keeps it, starting from the first command `(5, 150, 'fwd')` |
| Session.SimulationTrace | optimizer.py:196-230 | the first command is `(5, 150, 'fwd', 1)`; command `k` carries counter `k`; each later command is the policy's action on the decoded telemetry of the reply before it, and every such reply let the flight go on |
| Session.LoopEnded | optimizer.py:209-230 | the loop ends at the first reply that is not a `success` carrying decodable telemetry, or when the policy finds no action; the outcome names which branch stopped it (a non-success status is `Stopped` even when its telemetry does not decode, because it is never parsed), and the client keeps the telemetry of the last continuing reply unless a crash stored its final telemetry |
| Session.FlyEnded | optimizer.py:196-230 | as above for the whole run, including the initial-telemetry check: a first answer without telemetry is `InitialFailure`, one whose telemetry does not decode is `TelemetryError` |
| Session.EndedUnique | optimizer.py:196-230 | how a run ends is fixed by the replies: two runs stopping after the same number of commands have the same outcome, metrics and stored telemetry |
| Session.FlyNoAction | optimizer.py:211-214 | with a policy that finds no action exactly for the empty dictionary, a run ending without an action stopped on a reply that decoded to it |
| Session.SimulationEnds | optimizer.py:196-230 | how a run ends: awaiting a reply exactly when all replies were used; a closed connection exactly when the last reply was a closure; a crash stops the run; metrics are stored only by a crash |
| Session.SimulationNoAction | optimizer.py:133-135 | a simulation ends without an action only on a reply whose telemetry decoded to the empty dictionary |
| SessionExamples.CrashAtStart | optimizer.py:67-88 | a crash on the first command ends the run with the crash's metrics and raw final telemetry stored |
| SessionExamples.EmptyTelemetry | optimizer.py:133-135 | an empty telemetry string gives an empty dictionary, so no action is taken |
| SessionExamples.DecodeStatusPair | optimizer.py:125-126 | a lone `SENS` pair stores its raw value text as the status |
| SessionExamples.SecondCommandThenClosed | optimizer.py:209-222 | the second command is the policy's action on the first reply, stamped 2, and a closure then ends the run |

## Left out

- The websocket is not modelled: connection setup, ping and close timeouts, the
  greeting, `send`/`recv` and JSON encoding (optimizer.py:22-48, 61-64). The
  `Reply` datatype stands in for them.
- `connect` catches `ConnectionClosedError`. The model stops at the `ConnectionError`
  outcome of the simulation.
- Console output and the crash report are not modelled, including the call to the
  nonexistent `display_status` (optimizer.py:70-85). Its exception is caught, so the
  net effect is the same: `None`, with any metrics and final telemetry stored.
- The pygame display and the asyncio task handling in `simulator.py` are not part
  of this model. They hold no logic to verify.
- Numbers.ParseReal: covers surrounding whitespace as `float()` ignores it, an
  optional sign, and decimal digits with an optional fractional part, as exact reals.
  Exponents, `inf`/`nan`, digit-group underscores, non-ASCII digits and IEEE-754
  rounding are left out.
- Session.SendCommand: a reply's `telemetry` and `final_telemetry` are modelled as
  strings and `status` as text. Reply keys other than `status`, `telemetry`,
  `metrics`, `final_telemetry` and `message` are not modelled. They only decide
  whether a reply object is empty, so a reply with nothing but unknown keys is
  treated as empty.
- Session.Simulation: a finite reply sequence cannot model blocking. When it runs
  out, the run ends in `AwaitingReply` with the last command issued.
- Concurrency and `async` are left out; `get_optimal_action` never awaits.
- `uri`, `connection_id` and `start_time` are only set or printed, so they are
  not modelled.
- The `int` annotation on `altitude` is not enforced by Python. The model carries
  the real `altitude_change` into the command unchanged.

=== FILE: numbers.dfy ===
/** The part of Python's `float(str)` the telemetry values use: optional surrounding
    whitespace (`FloatSpace`), an optional sign, and decimal digits with an optional fractional part
    (`"87"`, `"10.5"`, `".5"`, `"3."`, `" +2 "`). Values are exact reals. */
module Numbers {
  import opened Wrappers
  import Text

  predicate IsDigit(c: char) {
    '0' <= c <= '9'
  }

  predicate AllDigits(s: string) {
    forall k :: 0 <= k < |s| ==> IsDigit(s[k])
  }

  function DigitValue(c: char): nat
    requires IsDigit(c)
  {
    (c as int - '0' as int) as nat
  }

  /** The natural number a run of decimal digits denotes, most significant first. */
  function DigitsValue(s: string): nat
    requires AllDigits(s)
    decreases |s|
  {
    if |s| == 0 then 0 else DigitsValue(s[..|s| - 1]) * 10 + DigitValue(s[|s| - 1])
  }

  function Pow10(n: nat): (p: nat)
    ensures p >= 1
  {
    if n == 0 then 1 else 10 * Pow10(n - 1)
  }

  /** The value of `whole.frac`: `whole + frac / 10^|frac|`. */
  function DecimalValue(whole: string, frac: string): (v: real)
    requires AllDigits(whole) && AllDigits(frac)
    ensures v >= 0.0
  {
    DigitsValue(whole) as real + DigitsValue(frac) as real / Pow10(|frac|) as real
  }

  /** An unsigned decimal: digits, or digits '.' digits with at least one digit overall. */
  function ParseUnsigned(t: string): (r: Option<real>)
    ensures r.Some? ==> r.value >= 0.0
  {
    var parts := Text.Split(t, '.');
    if |parts| == 1 then
      if |t| > 0 && AllDigits(t) then Some(DigitsValue(t) as real) else None
    else if |parts| == 2 then
      var whole, frac := parts[0], parts[1];
      if AllDigits(whole) && AllDigits(frac) && |whole| + |frac| > 0 then
        Some(DecimalValue(whole, frac))
      else None
    else None
  }

  /** The whitespace `float()` ignores around a number. CPython first maps every
      non-ASCII whitespace character to a space and then strips ASCII whitespace
      only, so the four ASCII separator characters U+001C..U+001F, which
      `str.strip()` removes, are not ignored by `float()`. */
  const FloatSpace: set<char> := Text.Whitespace - {'\U{1C}', '\U{1D}', '\U{1E}', '\U{1F}'}

  /** An unsigned decimal with an optional leading `+` or `-` that sets its sign. */
  function ParseSigned(t: string): (r: Option<real>)
    ensures '-' !in t && r.Some? ==> r.value >= 0.0
  {
    if |t| > 0 && (t[0] == '+' || t[0] == '-') then
      match ParseUnsigned(t[1..])
      case None => None
      case Some(v) => Some(if t[0] == '-' then -v else v)
    else
      ParseUnsigned(t)
  }

  /** `float(s)` for the decimal subset: `FloatSpace` around the number is ignored, a
      leading `+` or `-` sets the sign. A string without a '-' can only denote a
      non-negative number. */
  function ParseReal(s: string): (r: Option<real>)
    ensures '-' !in s && r.Some? ==> r.value >= 0.0
  {
    Text.StripExcludes(s, FloatSpace, '-');
    ParseSigned(Text.Strip(s, FloatSpace))
  }

  /** Decimal rendering of a natural number, as `str(n)` writes it. */
  function NatToString(n: nat): (s: string)
    ensures |s| > 0 && AllDigits(s)
  {
    var d := ['0' + (n % 10) as char];
    if n < 10 then d else NatToString(n / 10) + d
  }

  lemma {:induction false} DigitsValueOfNat(n: nat)
    ensures DigitsValue(NatToString(n)) == n
  {
    var s := NatToString(n);
    if n >= 10 {
      DigitsValueOfNat(n / 10);
      assert s[..|s| - 1] == NatToString(n / 10);
    }
  }

  /** A digit string carries no surrounding whitespace. */
  lemma DigitsUnstripped(s: string)
    requires |s| > 0 && AllDigits(s)
    ensures Text.Strip(s, FloatSpace) == s
  {
    assert IsDigit(s[0]) && IsDigit(s[|s| - 1]);
    Text.StripKeeps(s, FloatSpace);
  }

  /** A digit string is an unsigned decimal denoting its digits' value. */
  lemma DigitsUnsigned(s: string)
    requires |s| > 0 && AllDigits(s)
    ensures ParseUnsigned(s) == Some(DigitsValue(s) as real)
  {
    assert '.' !in s by {
      forall k | 0 <= k < |s| ensures s[k] != '.' { assert IsDigit(s[k]); }
    }
    Text.SplitWithoutSep(s, '.');
  }

  /** Round trip: `float(str(n)) == n` for every natural number `n`. */
  lemma ParseRealOfNat(n: nat)
    ensures ParseReal(NatToString(n)) == Some(n as real)
  {
    var s := NatToString(n);
    DigitsUnstripped(s);
    DigitsUnsigned(s);
    DigitsValueOfNat(n);
    assert IsDigit(s[0]);
  }

  /** A string that starts and ends with a digit or '.' carries no surrounding
      whitespace and no sign, so it converts as an unsigned decimal. */
  lemma ParseRealUnsigned(s: string)
    requires |s| > 0 && (IsDigit(s[0]) || s[0] == '.') && (IsDigit(s[|s| - 1]) || s[|s| - 1] == '.')
    ensures ParseReal(s) == ParseUnsigned(s)
  {
    Text.StripKeeps(s, FloatSpace);
  }

  /** A plain digit string converts to the number its digits denote. */
  lemma ParseRealDigits(s: string)
    requires |s| > 0 && AllDigits(s)
    ensures ParseReal(s) == Some(DigitsValue(s) as real)
  {
    assert IsDigit(s[0]) && IsDigit(s[|s| - 1]);
    ParseRealUnsigned(s);
    DigitsUnsigned(s);
  }

  /** `whole.frac` is an unsigned decimal worth `whole + frac / 10^|frac|`. */
  lemma DecimalUnsigned(whole: string, frac: string)
    requires AllDigits(whole) && AllDigits(frac) && |whole| + |frac| > 0
    ensures ParseUnsigned(whole + "." + frac) == Some(DecimalValue(whole, frac))
  {
    var s := whole + "." + frac;
    assert '.' !in whole by {
      forall k | 0 <= k < |whole| ensures whole[k] != '.' { assert IsDigit(whole[k]); }
    }
    assert '.' !in frac by {
      forall k | 0 <= k < |frac| ensures frac[k] != '.' { assert IsDigit(frac[k]); }
    }
    assert Text.Join([whole, frac], '.') == s;
    Text.SplitJoin([whole, frac], '.');
    var parts := Text.Split(s, '.');
    assert parts == [whole, frac];
    assert |parts| == 2 && parts[0] == whole && parts[1] == frac;
  }

  /** `float("whole.frac") == whole + frac / 10^|frac|`, either side of the point
      possibly empty (`".5"`, `"3."`) but not both. */
  lemma ParseRealDecimal(whole: string, frac: string)
    requires AllDigits(whole) && AllDigits(frac) && |whole| + |frac| > 0
    ensures ParseReal(whole + "." + frac) == Some(DecimalValue(whole, frac))
  {
    var s := whole + "." + frac;
    if |whole| > 0 {
      assert s[0] == whole[0] && IsDigit(whole[0]);
    } else {
      assert s[0] == '.';
    }
    if |frac| > 0 {
      assert s[|s| - 1] == frac[|frac| - 1] && IsDigit(frac[|frac| - 1]);
    } else {
      assert s[|s| - 1] == '.';
    }
    ParseRealUnsigned(s);
    DecimalUnsigned(whole, frac);
  }

  /** A number led by one of the separator characters U+001C..U+001F does not
      convert, although `str.strip()` would remove that character: `float()` and
      `strip()` disagree on what whitespace is. */
  lemma SeparatorIsNotFloatSpace(digits: string)
    requires |digits| > 0 && AllDigits(digits)
    ensures Text.StripSpace(['\U{1C}']) == ""
    ensures ParseReal(['\U{1C}'] + digits) == None
  {
    var s := ['\U{1C}'] + digits;
    assert s[|s| - 1] == digits[|digits| - 1] && IsDigit(digits[|digits| - 1]);
    Text.StripKeeps(s, FloatSpace);
    assert '.' !in s by {
      forall k | 0 <= k < |s| ensures s[k] != '.' {
        if k > 0 { assert s[k] == digits[k - 1] && IsDigit(digits[k - 1]); }
      }
    }
    Text.SplitWithoutSep(s, '.');
    assert !IsDigit(s[0]);
  }

  /** Only digits and '.' make up an unsigned decimal: any other character makes
      the conversion fail. */
  lemma UnsignedChars(u: string)
    ensures ParseUnsigned(u).Some? ==> forall i :: 0 <= i < |u| ==> IsDigit(u[i]) || u[i] == '.'
  {
    var parts := Text.Split(u, '.');
    if ParseUnsigned(u).Some? && |parts| == 2 {
      var whole, frac := parts[0], parts[1];
      assert parts[1..] == [frac];
      assert Text.Join(parts[1..], '.') == frac;
      assert u == whole + ['.'] + frac;
      forall i | 0 <= i < |u| ensures IsDigit(u[i]) || u[i] == '.' {
        if i < |whole| {
          assert u[i] == whole[i];
        } else if i > |whole| {
          assert u[i] == frac[i - |whole| - 1];
        }
      }
    }
  }

  /** Digit strings on both sides of a point, not both empty. */
  predicate IsDecimal(whole: string, frac: string)
  {
    AllDigits(whole) && AllDigits(frac) && |whole| + |frac| > 0
  }

  /** The unsigned decimals are exactly the non-empty digit strings and the texts
      `whole.frac` with `IsDecimal(whole, frac)`; anything else (`"1.2.3"`, `"."`,
      `"+"`, `""`) fails. */
  lemma UnsignedShape(u: string)
    ensures ParseUnsigned(u).Some? <==>
              (|u| > 0 && AllDigits(u)) || exists w, f :: u == w + "." + f && IsDecimal(w, f)
  {
    var parts := Text.Split(u, '.');
    if ParseUnsigned(u).Some? && |parts| == 2 {
      var whole, frac := parts[0], parts[1];
      assert parts[1..] == [frac];
      assert Text.Join(parts[1..], '.') == frac;
      assert u == whole + "." + frac && IsDecimal(whole, frac);
    }
    if |u| > 0 && AllDigits(u) {
      DigitsUnsigned(u);
    } else if exists w, f :: u == w + "." + f && IsDecimal(w, f) {
      var w, f :| u == w + "." + f && IsDecimal(w, f);
      DecimalUnsigned(w, f);
    }
  }

  /** A character that is neither a digit, '.', a sign nor whitespace `float()`
      ignores makes the conversion fail, wherever it sits. */
  lemma ParseRealRejects(s: string, k: nat)
    requires k < |s| && !IsDigit(s[k]) && s[k] !in FloatSpace && s[k] !in {'.', '+', '-'}
    ensures ParseReal(s) == None
  {
    var t := Text.Strip(s, FloatSpace);
    var lo := Text.LeadLength(s, FloatSpace);
    assert lo <= k < lo + |t|;
    assert t[k - lo] == s[k];
    if |t| > 0 && (t[0] == '+' || t[0] == '-') {
      var u := t[1..];
      assert k - lo > 0 && u[k - lo - 1] == s[k];
      UnsignedChars(u);
    } else {
      UnsignedChars(t);
    }
  }

  /** The value `float()` gives an unsigned decimal under a sign. */
  function Signed(sign: char, r: Option<real>): Option<real>
  {
    match r
    case None => None
    case Some(v) => Some(if sign == '-' then -v else v)
  }

  /** A text that starts with a sign and ends with a digit converts as the rest
      does, with that sign. */
  lemma ParseRealStripped(s: string)
    requires |s| > 0 && (s[0] == '+' || s[0] == '-') && IsDigit(s[|s| - 1])
    ensures ParseReal(s) == Signed(s[0], ParseUnsigned(s[1..]))
  {
    Text.StripKeeps(s, FloatSpace);
  }

  /** A leading sign before an unsigned decimal is read as the number's sign. */
  lemma ParseRealSigned(sign: char, u: string)
    requires sign == '+' || sign == '-'
    requires |u| > 0 && IsDigit(u[|u| - 1])
    ensures ParseReal([sign] + u) == Signed(sign, ParseUnsigned(u))
  {
    var s := [sign] + u;
    assert s[|s| - 1] == u[|u| - 1];
    ParseRealStripped(s);
    assert s[1..] == u;
  }

  /** `+` keeps the unsigned value and `-` negates it. */
  lemma ParseRealSign(u: string)
    requires |u| > 0 && IsDigit(u[|u| - 1])
    ensures ParseReal("+" + u) == ParseUnsigned(u)
    ensures ParseReal("-" + u) == match ParseUnsigned(u) case None => None case Some(v) => Some(-v)
  {
    ParseRealSigned('+', u);
    ParseRealSigned('-', u);
  }

  /** Whitespace `float()` ignores may surround a number without changing it. */
  lemma ParseRealSurrounded(pre: string, core: string, post: string)
    requires forall k :: 0 <= k < |pre| ==> pre[k] in FloatSpace
    requires forall k :: 0 <= k < |post| ==> post[k] in FloatSpace
    requires |core| > 0 && core[0] !in FloatSpace && core[|core| - 1] !in FloatSpace
    ensures ParseReal(pre + core + post) == ParseReal(core)
  {
    Text.StripSurrounded(pre, core, post, FloatSpace);
    Text.StripKeeps(core, FloatSpace);
  }
}

=== FILE: policy.dfy ===
/** The decision policy, `DroneClient.get_optimal_action`: a threshold table over
    the battery level, the altitude (`y_position`) and the sensor status, followed
    by a battery-conservation override. */
module Policy {
  import opened Wrappers
  import opened Telemetry

  /** `basealtitude`, the cruising altitude the GREEN policy steers towards. */
  const BaseAltitude: real := 150.0

  /** The `altitude_change` of the default action. It is the literal 150 rather
      than a change of zero, so the bands that do not set a change command a
      climb of 150. */
  const DefaultChange: real := 150.0

  /** The largest GREEN altitude step, and the smaller one on low battery. */
  const GreenStep: real := 5.0
  const LowBatteryStep: real := 3.0

  /** Below this battery level the override forces the slowest speed. */
  const LowBattery: real := 20.0

  /** The dictionary `{'speed', 'altitude_change', 'movement'}` the policy returns. */
  datatype Action = Action(speed: int, altitudeChange: real, movement: string)

  function Min(a: real, b: real): real { if a <= b then a else b }
  function Max(a: real, b: real): real { if a >= b then a else b }

  /** The action chosen by the status branches, before the override. */
  function StatusAction(battery: real, altitude: real, status: string): (r: Action)
    ensures r.movement == "fwd" && r.speed in {1, 2, 3, 5}
    ensures status in {"YELLOW", "RED"} ==> r.speed <= 3
    ensures status == "GREEN" && altitude != BaseAltitude ==>
              -GreenStep <= r.altitudeChange <= GreenStep
    ensures status in {"YELLOW", "RED"} ==> r.altitudeChange <= 0.2 || r.altitudeChange == DefaultChange
  {
    if status == "GREEN" then
      Action(
        if battery > 70.0 then 5 else if battery > 40.0 then 3 else 1,
        if altitude < BaseAltitude then Min(GreenStep, BaseAltitude - altitude)
        else if altitude > BaseAltitude then Max(-GreenStep, BaseAltitude - altitude)
        else DefaultChange,
        "fwd")
    else if status == "YELLOW" then
      Action(
        if battery > 60.0 then 3 else 1,
        if altitude > 50.0 then -10.0 else if altitude > 30.0 then -5.0 else DefaultChange,
        "fwd")
    else if status == "RED" then
      Action(
        if battery > 50.0 then 2 else 1,
        if altitude > 2.5 then -0.1 else if altitude < 1.5 then 0.2 else DefaultChange,
        "fwd")
    else
      Action(5, DefaultChange, "fwd")
  }

  /** The battery-conservation override: on low battery the speed drops to 1 and a
      GREEN off-target step is re-clamped to the smaller step. */
  function Conserve(a: Action, battery: real, altitude: real, status: string): (r: Action)
    ensures battery >= LowBattery ==> r == a
    ensures battery < LowBattery ==> r.speed == 1
    ensures r.movement == a.movement
    ensures status != "GREEN" ==> r.altitudeChange == a.altitudeChange
    ensures status == "GREEN" && battery < LowBattery && altitude != BaseAltitude ==>
              -LowBatteryStep <= r.altitudeChange <= LowBatteryStep
  {
    if battery < LowBattery then
      Action(
        1,
        if status == "GREEN" && altitude < BaseAltitude then Min(LowBatteryStep, BaseAltitude - altitude)
        else if status == "GREEN" && altitude > BaseAltitude then Max(-LowBatteryStep, BaseAltitude - altitude)
        else a.altitudeChange,
        a.movement)
    else a
  }

  /** The policy on the three readings it uses. */
  function Decide(battery: real, altitude: real, status: string): (r: Action)
    ensures r.movement == "fwd"
    ensures r.speed in {1, 2, 3, 5}
    ensures battery < LowBattery ==> r.speed == 1
    ensures status !in {"GREEN", "YELLOW", "RED"} ==> r.altitudeChange == DefaultChange
  {
    Conserve(StatusAction(battery, altitude, status), battery, altitude, status)
  }

  /** `get_optimal_action`: no action for an empty dictionary; otherwise the battery
      (default 100), the `y_position` as altitude (default 0) and the sensor status
      (default "GREEN") decide. */
  function GetOptimalAction(t: Telemetry): (r: Option<Action>)
    ensures r.None? <==> t == Empty
  {
    if t == Empty then None
    else
      Some(Decide(
        GetNumber(t, Battery).GetOr(100.0),
        GetNumber(t, YPosition).GetOr(0.0),
        GetStatus(t).GetOr("GREEN")))
  }

  // ---------------------------------------------------------------------------
  // Properties of the policy.

  /** GREEN steering: off the cruising altitude the change moves towards it, never
      past it, by at most the step allowed at this battery level, and either reaches
      it or moves by the full step. At the cruising altitude the default 150 stays. */
  lemma GreenApproach(battery: real, altitude: real)
    ensures var c := Decide(battery, altitude, "GREEN").altitudeChange;
            var step := if battery < LowBattery then LowBatteryStep else GreenStep;
            altitude != BaseAltitude ==>
              (altitude < BaseAltitude ==> 0.0 < c && altitude + c <= BaseAltitude)
              && (altitude > BaseAltitude ==> c < 0.0 && altitude + c >= BaseAltitude)
              && -step <= c <= step
              && (altitude + c == BaseAltitude || c == step || c == -step)
    ensures altitude == BaseAltitude ==> Decide(battery, altitude, "GREEN").altitudeChange == DefaultChange
  {
  }

  /** The default change of 150 survives exactly in the bands no branch sets: GREEN
      at the cruising altitude, YELLOW at or below 30, RED within [1.5, 2.5], and any
      unrecognised status. */
  lemma DefaultChangeIff(battery: real, altitude: real, status: string)
    ensures Decide(battery, altitude, status).altitudeChange == DefaultChange <==>
            (status == "GREEN" && altitude == BaseAltitude)
            || (status == "YELLOW" && altitude <= 30.0)
            || (status == "RED" && 1.5 <= altitude <= 2.5)
            || status !in {"GREEN", "YELLOW", "RED"}
  {
  }

  /** More battery never means a lower speed. */
  lemma SpeedMonotone(b1: real, b2: real, altitude: real, status: string)
    requires b1 <= b2
    ensures Decide(b1, altitude, status).speed <= Decide(b2, altitude, status).speed
  {
  }

  /** The action depends on no reading other than the battery, the altitude and the
      sensor status. */
  lemma ActionReadsThreeFields(t1: Telemetry, t2: Telemetry)
    requires t1 != Empty && t2 != Empty
    requires Get(t1, Battery) == Get(t2, Battery)
    requires Get(t1, YPosition) == Get(t2, YPosition)
    requires Get(t1, SensorStatus) == Get(t2, SensorStatus)
    ensures GetOptimalAction(t1) == GetOptimalAction(t2)
  {
  }

  /** Missing readings are filled with battery 100, altitude 0 and status GREEN. */
  lemma ActionDefaults(t: Telemetry)
    requires t != Empty
    requires Battery !in t && YPosition !in t && SensorStatus !in t
    ensures GetOptimalAction(t) == Some(Action(5, GreenStep, "fwd"))
  {
  }

  // ---------------------------------------------------------------------------
  // An independent reference: the policy written as data.

  /** A comparison of a reading against a bound. */
  datatype Test = Above(bound: real) | Below(bound: real)

  predicate Passes(test: Test, x: real)
  {
    match test
    case Above(b) => x > b
    case Below(b) => x < b
  }

  /** A row of the speed table: for `status`, a battery passing `test` gives `speed`. */
  datatype SpeedRow = SpeedRow(status: string, test: Test, speed: int)

  /** A row of the altitude table: for `status`, an altitude passing `test` gives `change`. */
  datatype ChangeRow = ChangeRow(status: string, test: Test, change: real)

  /** The statuses the policy has a branch for. */
  const Statuses: set<string> := {"GREEN", "YELLOW", "RED"}

  const SpeedRows: seq<SpeedRow> := [
    SpeedRow("GREEN", Above(70.0), 5), SpeedRow("GREEN", Above(40.0), 3),
    SpeedRow("YELLOW", Above(60.0), 3),
    SpeedRow("RED", Above(50.0), 2)
  ]

  const ChangeRows: seq<ChangeRow> := [
    ChangeRow("YELLOW", Above(50.0), -10.0), ChangeRow("YELLOW", Above(30.0), -5.0),
    ChangeRow("RED", Above(2.5), -0.1), ChangeRow("RED", Below(1.5), 0.2)
  ]

  /** The speed of the first row for `status` whose test the battery passes. */
  function FirstSpeed(rows: seq<SpeedRow>, status: string, battery: real): Option<int>
  {
    if |rows| == 0 then None
    else if rows[0].status == status && Passes(rows[0].test, battery) then Some(rows[0].speed)
    else FirstSpeed(rows[1..], status, battery)
  }

  /** The change of the first row for `status` whose test the altitude passes. */
  function FirstChange(rows: seq<ChangeRow>, status: string, altitude: real): Option<real>
  {
    if |rows| == 0 then None
    else if rows[0].status == status && Passes(rows[0].test, altitude) then Some(rows[0].change)
    else FirstChange(rows[1..], status, altitude)
  }

  /** `target - from` limited to at most `step` either way. */
  function Clamp(delta: real, step: real): real
  {
    if delta > step then step else if delta < -step then -step else delta
  }

  /** The reference policy: low battery means speed 1; a recognised status takes the
      first matching speed row or 1; GREEN steers towards the cruising altitude by a
      clamped step; the other statuses take the first matching change row; whatever
      no row covers keeps the default action. */
  function TableAction(battery: real, altitude: real, status: string): Action
  {
    var speed :=
      if battery < LowBattery then 1
      else if status in Statuses then FirstSpeed(SpeedRows, status, battery).GetOr(1)
      else 5;
    var step := if battery < LowBattery then LowBatteryStep else GreenStep;
    var change :=
      if status == "GREEN" then
        if altitude == BaseAltitude then DefaultChange else Clamp(BaseAltitude - altitude, step)
      else FirstChange(ChangeRows, status, altitude).GetOr(DefaultChange);
    Action(speed, change, "fwd")
  }

  /** The speed table read row by row. */
  lemma SpeedRowsRead(status: string, battery: real)
    ensures FirstSpeed(SpeedRows, status, battery) ==
            if status == "GREEN" && battery > 70.0 then Some(5)
            else if status == "GREEN" && battery > 40.0 then Some(3)
            else if status == "YELLOW" && battery > 60.0 then Some(3)
            else if status == "RED" && battery > 50.0 then Some(2)
            else None
  {
    var rows := SpeedRows;
    assert FirstSpeed(rows[4..], status, battery) == None;
    assert FirstSpeed(rows[3..], status, battery) == if status == "RED" && battery > 50.0 then Some(2) else None;
    assert FirstSpeed(rows[2..], status, battery) ==
           if status == "YELLOW" && battery > 60.0 then Some(3) else FirstSpeed(rows[3..], status, battery);
    assert FirstSpeed(rows[1..], status, battery) ==
           if status == "GREEN" && battery > 40.0 then Some(3) else FirstSpeed(rows[2..], status, battery);
  }

  /** The altitude table read row by row. */
  lemma ChangeRowsRead(status: string, altitude: real)
    ensures FirstChange(ChangeRows, status, altitude) ==
            if status == "YELLOW" && altitude > 50.0 then Some(-10.0)
            else if status == "YELLOW" && altitude > 30.0 then Some(-5.0)
            else if status == "RED" && altitude > 2.5 then Some(-0.1)
            else if status == "RED" && altitude < 1.5 then Some(0.2)
            else None
  {
    var rows := ChangeRows;
    assert FirstChange(rows[4..], status, altitude) == None;
    assert FirstChange(rows[3..], status, altitude) == if status == "RED" && altitude < 1.5 then Some(0.2) else None;
    assert FirstChange(rows[2..], status, altitude) ==
           if status == "RED" && altitude > 2.5 then Some(-0.1) else FirstChange(rows[3..], status, altitude);
    assert FirstChange(rows[1..], status, altitude) ==
           if status == "YELLOW" && altitude > 30.0 then Some(-5.0) else FirstChange(rows[2..], status, altitude);
  }

  /** The branching code and the tables agree on every input. */
  lemma DecideMatchesTable(battery: real, altitude: real, status: string)
    ensures Decide(battery, altitude, status) == TableAction(battery, altitude, status)
  {
    SpeedRowsRead(status, battery);
    ChangeRowsRead(status, altitude);
  }
}

=== FILE: session.dfy ===
/** The client session: `DroneClient.send_command` (the command counter and the
    handling of one reply) and `DroneClient.simulation` (the flight loop), with the
    websocket replaced by a finite sequence of replies, one per command sent. */
module Session {
  import opened Wrappers
  import opened Telemetry
  import Policy

  /** The server's flight statistics, kept as received. */
  datatype Metrics = Metrics(totalDistance: real, iterations: int)

  /** A decoded JSON reply object; a missing key is `None`. */
  datatype Object = Object(
    status: Option<string>,
    telemetry: Option<string>,
    metrics: Option<Metrics>,
    finalTelemetry: Option<string>,
    message: Option<string>)

  /** The empty object `{}`, the one reply object Python treats as false. */
  predicate IsEmpty(o: Object)
  {
    o.status.None? && o.telemetry.None? && o.metrics.None? && o.finalTelemetry.None? && o.message.None?
  }

  /** What sending a command and waiting for its answer yields: the connection
      closes (`ConnectionClosed` from `send` or `recv`), some other exception is
      raised (an undecodable or non-object reply), or a JSON object arrives. */
  datatype Reply = Closed | Garbage | Json(obj: Object)

  /** The command message: the three action fields and the stamped counter. */
  datatype Command = Command(speed: int, altitude: real, movement: string, commandCount: int)

  /** What `self.telemetry` holds: nothing yet, a decoded dictionary, or the raw
      `final_telemetry` value stored on a crash. */
  datatype Stored = NoTelemetry | Parsed(t: Telemetry) | Raw(s: string)

  /** The client's state; `issued` lists every command message built, in order. */
  datatype Client = Client(commandCount: int, telemetry: Stored, metrics: Option<Metrics>, issued: seq<Command>)

  /** A freshly constructed client. */
  const Initial: Client := Client(0, NoTelemetry, None, [])

  /** The outcome of `send_command`: the reply object, `None`, or the propagated
      `ConnectionClosed`. */
  datatype Received = Response(obj: Object) | NoResponse | ConnectionLost

  datatype Sent = Sent(client: Client, received: Received)

  /** The counter is bumped before anything is sent and its new value is stamped
      into the message. */
  function Issue(c: Client, speed: int, altitude: real, movement: string): (r: Client)
    ensures r.commandCount == c.commandCount + 1
    ensures |r.issued| == |c.issued| + 1 && r.issued[..|c.issued|] == c.issued
    ensures r.issued[|c.issued|] == Command(speed, altitude, movement, r.commandCount)
    ensures r.telemetry == c.telemetry && r.metrics == c.metrics
  {
    var count := c.commandCount + 1;
    c.(commandCount := count, issued := c.issued + [Command(speed, altitude, movement, count)])
  }

  /** Handling of the reply once the command is issued: `ConnectionClosed` goes on,
      any other exception becomes `None`; a `"crashed"` status stores the metrics
      and the raw final telemetry that are present and becomes `None`; any other
      object is returned as is. */
  function Handle(c: Client, reply: Reply): (r: Sent)
    ensures r.client.commandCount == c.commandCount && r.client.issued == c.issued
    ensures r.received.ConnectionLost? <==> reply == Closed
    ensures !IsCrash(reply) ==> r.client == c
    ensures IsCrash(reply) ==> r.received == NoResponse
  {
    match reply
    case Closed => Sent(c, ConnectionLost)
    case Garbage => Sent(c, NoResponse)
    case Json(o) =>
      if o.status == Some("crashed") then
        var c1 := if o.metrics.Some? then c.(metrics := o.metrics) else c;
        var c2 := if o.finalTelemetry.Some? then c1.(telemetry := Raw(o.finalTelemetry.value)) else c1;
        Sent(c2, NoResponse)
      else Sent(c, Response(o))
  }

  /** `send_command(speed, altitude, movement)` answered by `reply`. */
  function SendCommand(c: Client, speed: int, altitude: real, movement: string, reply: Reply): (r: Sent)
    ensures r.client.commandCount == c.commandCount + 1
    ensures r.client.issued == c.issued + [Command(speed, altitude, movement, c.commandCount + 1)]
    ensures r.received.ConnectionLost? <==> reply == Closed
    ensures r.received.Response? <==> reply.Json? && reply.obj.status != Some("crashed")
    ensures r.received.Response? ==> r.received.obj == reply.obj
    ensures !IsCrash(reply) ==> r.client.telemetry == c.telemetry && r.client.metrics == c.metrics
    ensures IsCrash(reply) ==>
              r.client.metrics == (if reply.obj.metrics.Some? then reply.obj.metrics else c.metrics)
              && r.client.telemetry == (if reply.obj.finalTelemetry.Some? then Raw(reply.obj.finalTelemetry.value) else c.telemetry)
  {
    Handle(Issue(c, speed, altitude, movement), reply)
  }

  predicate IsCrash(reply: Reply)
  {
    reply.Json? && reply.obj.status == Some("crashed")
  }

  /** Why the simulation ended. */
  datatype Outcome =
    | InitialFailure   // the answer to the first command gave no telemetry to decode
    | NoAction         // the policy gave no action: the decoded dictionary was empty
    | Stopped          // a later answer was a crash, an exception, `{}` or not a success
    | ConnectionError  // `ConnectionClosed` propagated out of the simulation
    | TelemetryError   // `parse_telemetry` raised on a reply's telemetry
    | MissingStatus    // a non-empty reply without "status": `data["status"]` raised
    | AwaitingReply    // the replies ran out while a command waited for its answer

  datatype Run = Run(client: Client, outcome: Outcome)

  /** The first command: full speed, the cruising altitude, forward. */
  const FirstCommand: Command := Command(5, Policy.BaseAltitude, "fwd", 1)

  /** The loop is written over the two pieces of client logic it calls, the
      telemetry decoder and the policy; `Simulation` plugs in the client's own. */
  type Decoder = string -> Option<Telemetry>
  type Planner = Telemetry -> Option<Policy.Action>

  /** `simulation`, answered by `replies`: reply `k` answers command `k+1`. */
  function Simulation(replies: seq<Reply>): (r: Run)
    ensures 1 <= |r.client.issued| <= |replies| + 1 && r.client.issued[0] == FirstCommand
    ensures r.client.commandCount == |r.client.issued|
  {
    Fly(ParseTelemetry, Policy.GetOptimalAction, replies)
  }

  /** The first command, then the loop. Apart from the crash check in
      `send_command`, only the first answer's telemetry is checked, not its status. */
  function Fly(decode: Decoder, plan: Planner, replies: seq<Reply>): (r: Run)
    ensures 1 <= |r.client.issued| <= |replies| + 1 && r.client.issued[0] == FirstCommand
    ensures r.client.commandCount == |r.client.issued|
  {
    if |replies| == 0 then Run(Issue(Initial, 5, Policy.BaseAltitude, "fwd"), AwaitingReply)
    else
      var sent := SendCommand(Initial, 5, Policy.BaseAltitude, "fwd", replies[0]);
      var c := sent.client;
      match sent.received
      case ConnectionLost => Run(c, ConnectionError)
      case NoResponse => Run(c, InitialFailure)
      case Response(o) =>
        if o.telemetry.None? then Run(c, InitialFailure)
        else match decode(o.telemetry.value)
          case None => Run(c, TelemetryError)
          case Some(t) => Loop(decode, plan, c.(telemetry := Parsed(t)), t, replies)
  }

  /** The `while True` loop. The client has issued `|c.issued|` commands and all of
      them have been answered, so the next command is answered by
      `replies[|c.issued|]`. */
  function Loop(decode: Decoder, plan: Planner, c: Client, t: Telemetry, replies: seq<Reply>): (r: Run)
    requires c.telemetry == Parsed(t)
    requires |c.issued| <= |replies|
    ensures |c.issued| <= |r.client.issued| <= |replies| + 1
    ensures r.client.issued[..|c.issued|] == c.issued
    ensures r.client.commandCount - c.commandCount == |r.client.issued| - |c.issued|
    decreases |replies| - |c.issued|
  {
    match plan(t)
    case None => Run(c, NoAction)
    case Some(a) =>
      if |c.issued| == |replies| then Run(Issue(c, a.speed, a.altitudeChange, a.movement), AwaitingReply)
      else
        var sent := SendCommand(c, a.speed, a.altitudeChange, a.movement, replies[|c.issued|]);
        var c1 := sent.client;
        match sent.received
        case ConnectionLost => Run(c1, ConnectionError)
        case NoResponse => Run(c1, Stopped)
        case Response(o) =>
          if IsEmpty(o) then Run(c1, Stopped)
          else if o.status.None? then Run(c1, MissingStatus)
          else if o.status.value == "success" && o.telemetry.Some? then
            match decode(o.telemetry.value)
            case None => Run(c1, TelemetryError)
            case Some(t1) => Loop(decode, plan, c1.(telemetry := Parsed(t1)), t1, replies)
          else Run(c1, Stopped)
  }

  // ---------------------------------------------------------------------------
  // The run, read off the reply sequence.

  /** The reply is a JSON object whose telemetry decodes. */
  predicate Decodes(decode: Decoder, reply: Reply)
  {
    reply.Json? && reply.obj.telemetry.Some? && decode(reply.obj.telemetry.value).Some?
  }

  /** The decoded telemetry of such a reply. */
  function TelemetryOf(decode: Decoder, reply: Reply): Telemetry
    requires Decodes(decode, reply)
  {
    decode(reply.obj.telemetry.value).value
  }

  /** Reply `k` lets the flight go on: its telemetry decodes, and it is not a crash
      (the answer to the first command, `k == 0`, needs no particular status) or it
      has status "success" (every later answer). */
  predicate Continues(decode: Decoder, k: nat, reply: Reply)
  {
    Decodes(decode, reply) && if k == 0 then reply.obj.status != Some("crashed") else reply.obj.status == Some("success")
  }

  /** The command carries the policy's action on the reply's telemetry. */
  predicate Steers(decode: Decoder, plan: Planner, reply: Reply, cmd: Command)
    requires Decodes(decode, reply)
  {
    plan(TelemetryOf(decode, reply)) == Some(Policy.Action(cmd.speed, cmd.altitude, cmd.movement))
  }

  /** Command `k+1` carries the counter value `k+1`, and the counter equals the
      number of commands issued. */
  predicate Stamped(c: Client)
  {
    c.commandCount == |c.issued| && forall k :: 0 <= k < |c.issued| ==> c.issued[k].commandCount == k + 1
  }

  /** The commands follow the replies: every command after the first carries the
      policy's action on the answer to the command before it, and that answer let
      the flight go on. */
  predicate Follows(decode: Decoder, plan: Planner, replies: seq<Reply>, cmds: seq<Command>)
    requires |cmds| <= |replies| + 1
    decreases |cmds|
  {
    |cmds| <= 1 ||
      (var k := |cmds| - 2;
       Follows(decode, plan, replies, cmds[..k + 1])
       && Continues(decode, k, replies[k]) && Steers(decode, plan, replies[k], cmds[k + 1]))
  }

  /** `Follows`, read at one position. */
  lemma {:induction false} FollowsAt(decode: Decoder, plan: Planner, replies: seq<Reply>, cmds: seq<Command>, k: nat)
    requires |cmds| <= |replies| + 1 && Follows(decode, plan, replies, cmds)
    requires k < |cmds| - 1
    ensures Continues(decode, k, replies[k]) && Steers(decode, plan, replies[k], cmds[k + 1])
    decreases |cmds|
  {
    if k < |cmds| - 2 {
      var prefix := cmds[..|cmds| - 1];
      FollowsAt(decode, plan, replies, prefix, k);
      assert prefix[k + 1] == cmds[k + 1];
    }
  }

  /** The state the loop keeps: at least the first command issued, the counter
      stamped into each command, and the commands following the replies. */
  predicate Trace(decode: Decoder, plan: Planner, replies: seq<Reply>, c: Client)
  {
    && 1 <= |c.issued| <= |replies| + 1
    && Stamped(c)
    && c.issued[0] == FirstCommand
    && Follows(decode, plan, replies, c.issued)
  }

  /** Issuing the policy's action on the last decoded reply extends the trace. */
  lemma TraceExtend(decode: Decoder, plan: Planner, replies: seq<Reply>, c: Client, c1: Client, next: Command)
    requires Trace(decode, plan, replies, c) && |c.issued| <= |replies|
    requires Continues(decode, |c.issued| - 1, replies[|c.issued| - 1])
    requires Steers(decode, plan, replies[|c.issued| - 1], next)
    requires next.commandCount == |c.issued| + 1
    requires c1.issued == c.issued + [next] && c1.commandCount == |c1.issued|
    ensures Trace(decode, plan, replies, c1)
  {
    assert c1.issued[..|c.issued|] == c.issued;
  }

  /** The rest of the loop keeps the trace. */
  lemma {:induction false} LoopTrace(decode: Decoder, plan: Planner, c: Client, t: Telemetry, replies: seq<Reply>)
    requires c.telemetry == Parsed(t)
    requires |c.issued| <= |replies|
    requires Trace(decode, plan, replies, c)
    requires Continues(decode, |c.issued| - 1, replies[|c.issued| - 1])
    requires t == TelemetryOf(decode, replies[|c.issued| - 1])
    ensures Trace(decode, plan, replies, Loop(decode, plan, c, t, replies).client)
    decreases |replies| - |c.issued|, 1
  {
    var n := |c.issued|;
    match plan(t)
    case None =>
    case Some(a) =>
      if n == |replies| {
        var next := Command(a.speed, a.altitudeChange, a.movement, n + 1);
        assert Steers(decode, plan, replies[n - 1], next);
        TraceExtend(decode, plan, replies, c, Loop(decode, plan, c, t, replies).client, next);
      } else {
        LoopTraceSent(decode, plan, c, t, replies, a);
      }
  }

  /** One pass of the loop that sends the policy's action and reads its answer
      keeps the trace, and so does the rest of the loop after it. */
  lemma {:induction false} LoopTraceSent(decode: Decoder, plan: Planner, c: Client, t: Telemetry, replies: seq<Reply>, a: Policy.Action)
    requires c.telemetry == Parsed(t)
    requires |c.issued| < |replies|
    requires Trace(decode, plan, replies, c)
    requires Continues(decode, |c.issued| - 1, replies[|c.issued| - 1])
    requires t == TelemetryOf(decode, replies[|c.issued| - 1])
    requires plan(t) == Some(a)
    ensures Trace(decode, plan, replies, Loop(decode, plan, c, t, replies).client)
    decreases |replies| - |c.issued|, 0
  {
    var n := |c.issued|;
    var r := Loop(decode, plan, c, t, replies);
    var next := Command(a.speed, a.altitudeChange, a.movement, n + 1);
    assert Steers(decode, plan, replies[n - 1], next);
    var sent := SendCommand(c, a.speed, a.altitudeChange, a.movement, replies[n]);
    var c1 := sent.client;
    TraceExtend(decode, plan, replies, c, c1, next);
    if sent.received.Response? {
      var o := sent.received.obj;
      if !IsEmpty(o) && o.status.Some? && o.status.value == "success" && o.telemetry.Some?
         && decode(o.telemetry.value).Some?
      {
        var t1 := decode(o.telemetry.value).value;
        assert Continues(decode, n, replies[n]);
        assert r == Loop(decode, plan, c1.(telemetry := Parsed(t1)), t1, replies);
        LoopTrace(decode, plan, c1.(telemetry := Parsed(t1)), t1, replies);
      } else {
        assert r.client == c1;
      }
    } else {
      assert r.client == c1;
    }
  }

  /** Every run keeps the trace. */
  lemma FlyTrace(decode: Decoder, plan: Planner, replies: seq<Reply>)
    ensures Trace(decode, plan, replies, Fly(decode, plan, replies).client)
  {
    var first := Issue(Initial, 5, Policy.BaseAltitude, "fwd");
    assert first.issued == [FirstCommand];
    if |replies| > 0 {
      var sent := SendCommand(Initial, 5, Policy.BaseAltitude, "fwd", replies[0]);
      assert sent.client.issued == [FirstCommand];
      match sent.received
      case ConnectionLost =>
      case NoResponse =>
      case Response(o) =>
        if o.telemetry.Some? {
          match decode(o.telemetry.value)
          case None =>
          case Some(t) =>
            assert Continues(decode, 0, replies[0]);
            LoopTrace(decode, plan, sent.client.(telemetry := Parsed(t)), t, replies);
        }
    }
  }

  /** The commands of a simulation: the first is `(5, 150, 'fwd')`, command `k+1`
      carries the counter value `k+1` and the counter ends at the number of commands
      issued, and each later command is the policy's action on the decoded
      telemetry of the answer to the command before it, every such answer having
      let the flight go on. */
  lemma SimulationTrace(replies: seq<Reply>)
    ensures var c := Simulation(replies).client;
            && 1 <= |c.issued| <= |replies| + 1
            && c.issued[0] == FirstCommand
            && c.commandCount == |c.issued|
            && (forall k :: 0 <= k < |c.issued| ==> c.issued[k].commandCount == k + 1)
            && forall k :: 0 <= k < |c.issued| - 1 ==>
                 Continues(ParseTelemetry, k, replies[k])
                 && Policy.GetOptimalAction(TelemetryOf(ParseTelemetry, replies[k]))
                    == Some(Policy.Action(c.issued[k + 1].speed, c.issued[k + 1].altitude, c.issued[k + 1].movement))
  {
    var c := Simulation(replies).client;
    FlyTrace(ParseTelemetry, Policy.GetOptimalAction, replies);
    forall k | 0 <= k < |c.issued| - 1
      ensures Continues(ParseTelemetry, k, replies[k])
              && Steers(ParseTelemetry, Policy.GetOptimalAction, replies[k], c.issued[k + 1])
    {
      FollowsAt(ParseTelemetry, Policy.GetOptimalAction, replies, c.issued, k);
    }
  }

  /** What the last reply the client consumed says about how the run ended; `n`
      commands were issued, so that reply is `replies[n - 1]` when it exists. The
      outcome, the metrics and the stored telemetry are all fixed by the replies
      (`EndedUnique`). */
  predicate Ended(decode: Decoder, plan: Planner, replies: seq<Reply>, r: Run)
  {
    var n := |r.client.issued|;
    var crashed := 1 <= n <= |replies| && IsCrash(replies[n - 1]);
    && 1 <= n <= |replies| + 1
    && (r.outcome == AwaitingReply <==> n == |replies| + 1)
    && (r.outcome == NoAction ==>
          n <= |replies| && Continues(decode, n - 1, replies[n - 1])
          && plan(TelemetryOf(decode, replies[n - 1])).None?
          && r.client.telemetry == Parsed(TelemetryOf(decode, replies[n - 1])))
    && (r.outcome != AwaitingReply && r.outcome != NoAction ==>
          n <= |replies| && !Continues(decode, n - 1, replies[n - 1]))
    && (r.outcome == ConnectionError <==> n <= |replies| && replies[n - 1] == Closed)
    && (r.outcome == InitialFailure ==>
          n == 1
          && (replies[0] == Garbage || IsCrash(replies[0])
              || (replies[0].Json? && replies[0].obj.telemetry.None?)))
    && (r.outcome == TelemetryError ==>
          n <= |replies| && replies[n - 1].Json? && replies[n - 1].obj.telemetry.Some?
          && !Decodes(decode, replies[n - 1])
          && (n == 1 || replies[n - 1].obj.status == Some("success")))
    && (r.outcome == MissingStatus ==>
          1 < n <= |replies| && replies[n - 1].Json?
          && !IsEmpty(replies[n - 1].obj) && replies[n - 1].obj.status.None?)
    && (r.outcome == Stopped ==>
          1 < n <= |replies|
          && (replies[n - 1] == Garbage
              || (replies[n - 1].Json?
                  && (IsEmpty(replies[n - 1].obj)
                      || (replies[n - 1].obj.status.Some?
                          && (replies[n - 1].obj.status != Some("success") || replies[n - 1].obj.telemetry.None?))))))
    && (crashed ==> r.outcome == (if n == 1 then InitialFailure else Stopped))
    && r.client.metrics == (if crashed then replies[n - 1].obj.metrics else None)
    && (crashed && replies[n - 1].obj.finalTelemetry.Some? ==>
          r.client.telemetry == Raw(replies[n - 1].obj.finalTelemetry.value))
    // Otherwise the client holds what it held when it sent its last command:
    // nothing before the first answer, then the telemetry of the answer before.
    && (r.outcome != NoAction && !(crashed && replies[n - 1].obj.finalTelemetry.Some?) ==>
          if n == 1 then r.client.telemetry == NoTelemetry
          else Decodes(decode, replies[n - 2])
               && r.client.telemetry == Parsed(TelemetryOf(decode, replies[n - 2])))
  }

  /** A run that issued the same number of commands on the same replies ended the
      same way: `Ended` leaves one outcome, one set of metrics and one stored
      telemetry for each stop point. */
  lemma EndedUnique(decode: Decoder, plan: Planner, replies: seq<Reply>, r1: Run, r2: Run)
    requires |r1.client.issued| == |r2.client.issued|
    requires Ended(decode, plan, replies, r1) && Ended(decode, plan, replies, r2)
    ensures r1.outcome == r2.outcome
    ensures r1.client.metrics == r2.client.metrics && r1.client.telemetry == r2.client.telemetry
  {
  }

  /** The rest of the loop ends as `Ended` says. */
  lemma {:induction false} LoopEnded(decode: Decoder, plan: Planner, c: Client, t: Telemetry, replies: seq<Reply>)
    requires c.telemetry == Parsed(t) && c.metrics == None
    requires 1 <= |c.issued| <= |replies|
    requires Continues(decode, |c.issued| - 1, replies[|c.issued| - 1])
    requires t == TelemetryOf(decode, replies[|c.issued| - 1])
    ensures Ended(decode, plan, replies, Loop(decode, plan, c, t, replies))
    decreases |replies| - |c.issued|
  {
    var n := |c.issued|;
    var r := Loop(decode, plan, c, t, replies);
    match plan(t)
    case None =>
      assert r == Run(c, NoAction);
    case Some(a) =>
      if n == |replies| {
        assert |r.client.issued| == n + 1;
      } else {
        var reply := replies[n];
        var sent := SendCommand(c, a.speed, a.altitudeChange, a.movement, reply);
        var c1 := sent.client;
        assert |c1.issued| == n + 1;
        match sent.received
        case ConnectionLost =>
          assert r == Run(c1, ConnectionError);
        case NoResponse =>
          assert r == Run(c1, Stopped);
        case Response(o) =>
          assert o == reply.obj && !IsCrash(reply);
          if IsEmpty(o) {
            assert r == Run(c1, Stopped);
          } else if o.status.None? {
            assert r == Run(c1, MissingStatus);
          } else if o.status.value == "success" && o.telemetry.Some? {
            match decode(o.telemetry.value)
            case None =>
              assert r == Run(c1, TelemetryError);
            case Some(t1) =>
              assert Continues(decode, n, replies[n]);
              LoopEnded(decode, plan, c1.(telemetry := Parsed(t1)), t1, replies);
          } else {
            assert r == Run(c1, Stopped);
          }
      }
  }

  /** Every run ends as `Ended` says. */
  lemma FlyEnded(decode: Decoder, plan: Planner, replies: seq<Reply>)
    ensures Ended(decode, plan, replies, Fly(decode, plan, replies))
  {
    var r := Fly(decode, plan, replies);
    if |replies| > 0 {
      var reply := replies[0];
      var sent := SendCommand(Initial, 5, Policy.BaseAltitude, "fwd", reply);
      var c := sent.client;
      assert |c.issued| == 1;
      match sent.received
      case ConnectionLost =>
        assert r == Run(c, ConnectionError);
      case NoResponse =>
        assert r == Run(c, InitialFailure);
      case Response(o) =>
        assert o == reply.obj && !IsCrash(reply);
        if o.telemetry.None? {
          assert r == Run(c, InitialFailure);
        } else {
          match decode(o.telemetry.value)
          case None =>
            assert r == Run(c, TelemetryError);
          case Some(t) =>
            assert Continues(decode, 0, replies[0]);
            LoopEnded(decode, plan, c.(telemetry := Parsed(t)), t, replies);
        }
    }
  }

  /** With a policy that finds no action exactly for the empty dictionary, a run
      that finds no action stopped on a reply whose telemetry decoded to it. */
  lemma FlyNoAction(decode: Decoder, plan: Planner, replies: seq<Reply>)
    requires forall t :: plan(t).None? <==> t == Empty
    ensures var r := Fly(decode, plan, replies);
            r.outcome == NoAction ==>
              var n := |r.client.issued|;
              n <= |replies| && Decodes(decode, replies[n - 1])
              && TelemetryOf(decode, replies[n - 1]) == Empty
  {
    FlyEnded(decode, plan, replies);
  }

  /** How a simulation ends, for the client's own decoder and policy: as `Ended`
      says. */
  lemma SimulationEnds(replies: seq<Reply>)
    ensures Ended(ParseTelemetry, Policy.GetOptimalAction, replies, Simulation(replies))
  {
    FlyEnded(ParseTelemetry, Policy.GetOptimalAction, replies);
  }

  /** A simulation that finds no action stopped on a reply whose telemetry decoded
      to the empty dictionary. */
  lemma SimulationNoAction(replies: seq<Reply>)
    ensures var r := Simulation(replies);
            r.outcome == NoAction ==>
              var n := |r.client.issued|;
              n <= |replies| && Decodes(ParseTelemetry, replies[n - 1])
              && TelemetryOf(ParseTelemetry, replies[n - 1]) == Empty
  {
    forall t: Telemetry ensures Policy.GetOptimalAction(t).None? <==> t == Empty {
    }
    FlyNoAction(ParseTelemetry, Policy.GetOptimalAction, replies);
  }
}

=== FILE: session_examples.dfy ===
/** Worked runs of the simulation on short reply sequences. */
module SessionExamples {
  import opened Wrappers
  import Text
  import opened Telemetry
  import Policy
  import opened Session

  /** With no reply at all the first command is issued and waits for its answer. */
  lemma NoReplies()
    ensures Simulation([]) == Run(Client(1, NoTelemetry, None, [FirstCommand]), AwaitingReply)
  {
  }

  /** A closed connection on the first command propagates. */
  lemma ClosedAtStart()
    ensures Simulation([Closed]) == Run(Client(1, NoTelemetry, None, [FirstCommand]), ConnectionError)
  {
  }

  /** A crash on the first command: no initial telemetry, but the metrics and the raw
      final telemetry of the crash reply are kept. */
  lemma CrashAtStart(m: Metrics, final: string)
    ensures Simulation([Json(Object(Some("crashed"), None, Some(m), Some(final), None))])
            == Run(Client(1, Raw(final), Some(m), [FirstCommand]), InitialFailure)
  {
  }

  /** An empty telemetry string decodes to the empty dictionary, for which the policy
      has no action. Apart from the crash check in `send_command`, the first answer's
      status is not looked at: any status other than "crashed" gives this run. */
  lemma EmptyTelemetry(status: Option<string>)
    requires status != Some("crashed")
    ensures Simulation([Json(Object(status, Some(""), None, None, None))])
            == Run(Client(1, Parsed(Empty), None, [FirstCommand]), NoAction)
  {
    assert ParseTelemetry("") == Some(Empty);
  }

  /** A single `SENS` pair stores its value text as the sensor status. */
  lemma DecodeStatusPair(value: string)
    requires '-' !in value
    ensures ParseTelemetry(KeyOf(SensorStatus) + "-" + value) == Some(map[SensorStatus := Label(value)])
  {
    var key := KeyOf(SensorStatus);
    var s := key + "-" + value;
    var parts := [key, value];
    assert Text.Join(parts, '-') == s;
    Text.SplitJoin(parts, '-');
    assert FieldOfKey(key) == Some(SensorStatus);
    assert Decode(SensorStatus, value) == Some(Label(value));
    assert parts[2..] == [];
    assert ParsePairs(parts, Empty) == ParsePairs([], Empty[SensorStatus := Label(value)]);
    assert Empty[SensorStatus := Label(value)] == map[SensorStatus := Label(value)];
  }

  /** `"SENS-RED"` decodes to a dictionary holding only the sensor status. */
  lemma DecodeRed()
    ensures ParseTelemetry("SENS-RED") == Some(map[SensorStatus := Label("RED")])
  {
    assert KeyOf(SensorStatus) + "-" + "RED" == "SENS-RED";
    DecodeStatusPair("RED");
  }

  /** A RED status with no other reading: battery 100 and altitude 0 are assumed, so
      the action is a careful climb of 0.2 at speed 2. */
  lemma RedAction()
    ensures Policy.GetOptimalAction(map[SensorStatus := Label("RED")]) == Some(Policy.Action(2, 0.2, "fwd"))
  {
  }

  /** After a first answer whose telemetry decodes to `t`, for which the policy
      picks `a`, the second command is `a` stamped 2; when the connection then
      closes, the run ends there. */
  lemma SecondCommandThenClosed(decode: Decoder, plan: Planner, replies: seq<Reply>, t: Telemetry, a: Policy.Action)
    requires |replies| == 2 && replies[1] == Closed
    requires replies[0].Json? && replies[0].obj.status != Some("crashed")
    requires replies[0].obj.telemetry.Some? && decode(replies[0].obj.telemetry.value) == Some(t)
    requires plan(t) == Some(a)
    ensures Fly(decode, plan, replies)
            == Run(Client(2, Parsed(t), None, [FirstCommand, Command(a.speed, a.altitudeChange, a.movement, 2)]),
                   ConnectionError)
  {
    var c := Client(1, Parsed(t), None, [FirstCommand]);
    assert SendCommand(Initial, 5, Policy.BaseAltitude, "fwd", replies[0]).client == c.(telemetry := NoTelemetry);
    assert Fly(decode, plan, replies) == Loop(decode, plan, c, t, replies);
  }
}

=== FILE: telemetry.dfy ===
/** The telemetry decoder, `DroneClient.parse_telemetry`: the server's
    `KEY-VALUE-KEY-VALUE-...` string becomes a dictionary-like record holding only
    the keys that occurred. */
module Telemetry {
  import opened Wrappers
  import Text
  import Numbers

  /** The seven keys the decoder recognises, by the dictionary entry they fill. */
  datatype Field = XPosition | YPosition | Battery | Gyroscope | WindSpeed | DustLevel | SensorStatus

  /** The wire key of each field. */
  function KeyOf(f: Field): string
  {
    match f
    case XPosition => "X"
    case YPosition => "Y"
    case Battery => "BAT"
    case Gyroscope => "GYR"
    case WindSpeed => "WIND"
    case DustLevel => "DUST"
    case SensorStatus => "SENS"
  }

  /** The field a wire key names, if any; unknown keys name none. */
  function FieldOfKey(key: string): (r: Option<Field>)
    ensures r.Some? ==> KeyOf(r.value) == key
    ensures forall f :: KeyOf(f) == key ==> r == Some(f)
  {
    if key == "X" then Some(XPosition)
    else if key == "Y" then Some(YPosition)
    else if key == "BAT" then Some(Battery)
    else if key == "GYR" then Some(Gyroscope)
    else if key == "WIND" then Some(WindSpeed)
    else if key == "DUST" then Some(DustLevel)
    else if key == "SENS" then Some(SensorStatus)
    else None
  }

  /** A decoded dictionary entry. */
  datatype Value = Number(n: real) | Vector(v: seq<real>) | Label(s: string)

  /** The shape of entry each field holds: a list for `gyroscope`, the raw text for
      `sensor_status`, a float for the rest. */
  predicate Fits(f: Field, v: Value)
  {
    match f
    case Gyroscope => v.Vector?
    case SensorStatus => v.Label?
    case _ => v.Number?
  }

  /** The decoded dictionary: a field is missing when its key never occurred. */
  type Telemetry = m: map<Field, Value> | forall f :: f in m ==> Fits(f, m[f])
    witness map[]

  /** The empty dictionary `{}` the decoder starts from. */
  const Empty: Telemetry := map[]

  /** The entry for a field, as `telemetry.get(name)` reads it. */
  function Get(t: Telemetry, f: Field): Option<Value>
  {
    if f in t then Some(t[f]) else None
  }

  /** The float stored for a numeric field, if present. */
  function GetNumber(t: Telemetry, f: Field): (r: Option<real>)
    requires f !in {Gyroscope, SensorStatus}
    ensures r.Some? <==> f in t
    ensures r.Some? ==> t[f] == Number(r.value)
  {
    if f in t then Some(t[f].n) else None
  }

  /** The sensor status text, if present. */
  function GetStatus(t: Telemetry): (r: Option<string>)
    ensures r.Some? <==> SensorStatus in t
    ensures r.Some? ==> t[SensorStatus] == Label(r.value)
  {
    if SensorStatus in t then Some(t[SensorStatus].s) else None
  }

  /** The characters `strip('[]')` removes around the gyroscope list. */
  const Brackets: set<char> := {'[', ']'}

  /** `not v.strip()`: the piece is empty or all whitespace (`BlankIffStripsEmpty`). */
  predicate IsBlank(p: string)
  {
    forall k :: 0 <= k < |p| ==> p[k] in Text.Whitespace
  }

  /** A piece is blank exactly when `strip()` leaves nothing of it. */
  lemma BlankIffStripsEmpty(p: string)
    ensures IsBlank(p) <==> Text.StripSpace(p) == ""
  {
    var r := Text.StripSpace(p);
    var lo := Text.LeadLength(p, Text.Whitespace);
    if r != "" {
      assert p[lo] == r[0] && r[0] !in Text.Whitespace;
    }
  }

  /** The list comprehension's filter `if v.strip()`: the non-blank pieces, in order. */
  function NonBlank(pieces: seq<string>): (r: seq<string>)
    ensures |r| <= |pieces|
    ensures forall k :: 0 <= k < |r| ==> !IsBlank(r[k])
  {
    if |pieces| == 0 then []
    else if IsBlank(pieces[0]) then NonBlank(pieces[1..])
    else [pieces[0]] + NonBlank(pieces[1..])
  }

  /** The filter keeps exactly the non-blank pieces: every kept piece is a
      non-blank input piece, and every non-blank input piece is kept. */
  lemma {:induction false} NonBlankKeeps(pieces: seq<string>)
    ensures forall k :: 0 <= k < |NonBlank(pieces)| ==> NonBlank(pieces)[k] in pieces
    ensures forall k :: 0 <= k < |NonBlank(pieces)| ==> !IsBlank(NonBlank(pieces)[k])
    ensures forall i :: 0 <= i < |pieces| && !IsBlank(pieces[i]) ==> pieces[i] in NonBlank(pieces)
  {
    if |pieces| > 0 {
      var tail := pieces[1..];
      var rest := NonBlank(tail);
      NonBlankKeeps(tail);
      var r := NonBlank(pieces);
      var skip := if IsBlank(pieces[0]) then 0 else 1;
      assert |r| == |rest| + skip;
      assert forall j :: 0 <= j < |rest| ==> r[j + skip] == rest[j];
      forall k | 0 <= k < |r| ensures r[k] in pieces {
        if k < skip {
          assert r[k] == pieces[0];
        } else {
          var i :| 0 <= i < |tail| && tail[i] == rest[k - skip];
          assert pieces[i + 1] == r[k];
        }
      }
      forall i | 0 <= i < |pieces| && !IsBlank(pieces[i]) ensures pieces[i] in r {
        if i == 0 {
          assert r[0] == pieces[0];
        } else {
          assert tail[i - 1] == pieces[i];
          var j :| 0 <= j < |rest| && rest[j] == pieces[i];
          assert r[j + skip] == pieces[i];
        }
      }
    }
  }

  /** A list without blank pieces passes the filter unchanged. */
  lemma {:induction false} NonBlankAllKept(pieces: seq<string>)
    requires forall i :: 0 <= i < |pieces| ==> !IsBlank(pieces[i])
    ensures NonBlank(pieces) == pieces
  {
    if |pieces| > 0 {
      assert forall i :: 0 <= i < |pieces[1..]| ==> !IsBlank(pieces[1..][i]);
      NonBlankAllKept(pieces[1..]);
      assert [pieces[0]] + pieces[1..] == pieces;
    }
  }

  /** The filter keeps the order: filtering a concatenation filters each part. */
  lemma {:induction false} NonBlankAppend(a: seq<string>, b: seq<string>)
    ensures NonBlank(a + b) == NonBlank(a) + NonBlank(b)
    decreases |a|
  {
    if |a| > 0 {
      assert (a + b)[1..] == a[1..] + b;
      NonBlankAppend(a[1..], b);
    } else {
      assert a + b == b;
    }
  }

  /** The pieces of a gyroscope value that the comprehension converts with `float`. */
  function GyroPieces(value: string): seq<string>
  {
    NonBlank(Text.Split(Text.Strip(value, Brackets), ','))
  }

  /** Converts every piece with `conv`, or fails as a whole when any one piece
      does not convert. */
  function ParseAll(conv: string -> Option<real>, pieces: seq<string>): (r: Option<seq<real>>)
    ensures r.Some? ==> |r.value| == |pieces|
  {
    if |pieces| == 0 then Some([])
    else match (conv(pieces[0]), ParseAll(conv, pieces[1..]))
      case (Some(x), Some(xs)) => Some([x] + xs)
      case _ => None
  }

  /** `ParseAll` succeeds exactly when every piece converts, and then holds every
      piece's value in order. */
  lemma {:induction false} ParseAllSpec(conv: string -> Option<real>, pieces: seq<string>)
    ensures ParseAll(conv, pieces).Some? <==> forall k :: 0 <= k < |pieces| ==> conv(pieces[k]).Some?
    ensures ParseAll(conv, pieces).Some? ==>
              |ParseAll(conv, pieces).value| == |pieces|
              && forall k :: 0 <= k < |pieces| ==> conv(pieces[k]) == Some(ParseAll(conv, pieces).value[k])
  {
    if |pieces| > 0 {
      ParseAllSpec(conv, pieces[1..]);
      assert forall k :: 1 <= k < |pieces| ==> pieces[k] == pieces[1..][k - 1];
    }
  }

  /** The `GYR` value: brackets stripped, split on ',', blank pieces dropped, each
      piece converted with `float`; the `except ValueError` turns the whole vector
      into `[0.0, 0.0, 0.0]`. */
  function ParseGyro(value: string): (r: seq<real>)
    ensures |r| == |GyroPieces(value)| || r == [0.0, 0.0, 0.0]
  {
    match ParseAll(Numbers.ParseReal, GyroPieces(value))
    case Some(v) => v
    case None => [0.0, 0.0, 0.0]
  }

  /** Gyroscope atomicity: when every non-blank piece is a number the vector holds
      exactly their values, in order and however many there are (not forced to
      three); when any piece is not a number the vector is `[0.0, 0.0, 0.0]`, never
      a partial vector. */
  lemma GyroAtomic(value: string)
    ensures var pieces := GyroPieces(value);
            (forall k :: 0 <= k < |pieces| ==> Numbers.ParseReal(pieces[k]).Some?) ==>
              |ParseGyro(value)| == |pieces| &&
              forall k :: 0 <= k < |pieces| ==> Numbers.ParseReal(pieces[k]) == Some(ParseGyro(value)[k])
    ensures var pieces := GyroPieces(value);
            (exists k :: 0 <= k < |pieces| && Numbers.ParseReal(pieces[k]).None?) ==>
              ParseGyro(value) == [0.0, 0.0, 0.0]
  {
    ParseAllSpec(Numbers.ParseReal, GyroPieces(value));
  }

  /** The pieces of a gyroscope value without a minus sign carry none either. */
  lemma GyroPiecesWithoutMinus(value: string)
    requires '-' !in value
    ensures forall k :: 0 <= k < |GyroPieces(value)| ==> '-' !in GyroPieces(value)[k]
  {
    var pieces := Text.Split(Text.Strip(value, Brackets), ',');
    Text.StripExcludes(value, Brackets, '-');
    Text.JoinExcludes(pieces, ',', '-');
    var kept := NonBlank(pieces);
    NonBlankKeeps(pieces);
    forall k | 0 <= k < |kept| ensures '-' !in kept[k] {
      var i :| 0 <= i < |pieces| && pieces[i] == kept[k];
    }
  }

  /** Converting pieces whose values are all non-negative gives a non-negative list. */
  lemma ParseAllNonNegative(conv: string -> Option<real>, pieces: seq<string>)
    requires forall k :: 0 <= k < |pieces| && conv(pieces[k]).Some? ==> conv(pieces[k]).value >= 0.0
    ensures ParseAll(conv, pieces).Some? ==>
              forall k :: 0 <= k < |ParseAll(conv, pieces).value| ==> ParseAll(conv, pieces).value[k] >= 0.0
  {
    ParseAllSpec(conv, pieces);
  }

  /** A gyroscope value without a minus sign yields no negative component. */
  lemma GyroNonNegative(value: string)
    requires '-' !in value
    ensures forall k :: 0 <= k < |ParseGyro(value)| ==> ParseGyro(value)[k] >= 0.0
  {
    var kept := GyroPieces(value);
    GyroPiecesWithoutMinus(value);
    forall k | 0 <= k < |kept| && Numbers.ParseReal(kept[k]).Some?
      ensures Numbers.ParseReal(kept[k]).value >= 0.0
    {
    }
    ParseAllNonNegative(Numbers.ParseReal, kept);
    var r := ParseGyro(value);
    if ParseAll(Numbers.ParseReal, kept).None? {
      assert r == [0.0, 0.0, 0.0];
      forall k | 0 <= k < |r| ensures r[k] >= 0.0 {
        assert k == 0 || k == 1 || k == 2;
      }
    }
  }

  /** How one field's value text converts: `float(value)` for the numeric fields
      (which may fail), the gyroscope sub-parser (which never fails), and the raw
      text for the sensor status. */
  function Decode(f: Field, value: string): (r: Option<Value>)
    ensures f == Gyroscope || f == SensorStatus ==> r.Some?
    ensures r.Some? ==> Fits(f, r.value)
  {
    match f
    case Gyroscope => Some(Vector(ParseGyro(value)))
    case SensorStatus => Some(Label(value))
    case _ =>
      match Numbers.ParseReal(value)
      case Some(n) => Some(Number(n))
      case None => None
  }

  /** The loop over `range(0, len(parts), 2)`: each token at an even position is a
      key and the token after it its value; an odd trailing token is skipped,
      unknown keys are skipped, a recognised key's entry is (over)written with the
      converted value, and the first conversion that raises aborts the parse. */
  function ParsePairs(parts: seq<string>, acc: Telemetry): (r: Option<Telemetry>)
    ensures r.Some? ==> acc.Keys <= r.value.Keys
    decreases |parts|
  {
    if |parts| < 2 then Some(acc)
    else match FieldOfKey(parts[0])
      case None => ParsePairs(parts[2..], acc)
      case Some(f) =>
        match Decode(f, parts[1])
        case None => None
        case Some(v) => ParsePairs(parts[2..], acc[f := v])
  }

  /** `parse_telemetry(s)`: `None` models the `ValueError` a bad numeric value raises. */
  function ParseTelemetry(s: string): Option<Telemetry>
  {
    ParsePairs(Text.Split(s, '-'), Empty)
  }

  // ---------------------------------------------------------------------------
  // A declarative reading of the token stream, independent of the loop above.

  /** Number of complete key/value pairs among the tokens. */
  function PairCount(parts: seq<string>): nat
  {
    |parts| / 2
  }

  function KeyAt(parts: seq<string>, j: nat): string
    requires j < PairCount(parts)
  {
    parts[2 * j]
  }

  function ValueAt(parts: seq<string>, j: nat): string
    requires j < PairCount(parts)
  {
    parts[2 * j + 1]
  }

  /** Pair `j` has the key of field `f`. */
  predicate Names(parts: seq<string>, j: nat, f: Field)
  {
    j < PairCount(parts) && KeyAt(parts, j) == KeyOf(f)
  }

  /** Pair `j` is the last pair that has the key of field `f`. */
  predicate LastNames(parts: seq<string>, j: nat, f: Field)
  {
    Names(parts, j, f) && forall k :: j < k < PairCount(parts) ==> !Names(parts, k, f)
  }

  /** Pair `j` has a recognised key whose value does not convert. */
  predicate Rejects(parts: seq<string>, j: nat)
  {
    j < PairCount(parts) && FieldOfKey(KeyAt(parts, j)).Some?
    && Decode(FieldOfKey(KeyAt(parts, j)).value, ValueAt(parts, j)).None?
  }

  /** What one pair does to the dictionary: nothing, abort, or write one entry. */
  datatype Effect = Skip | Abort | Write(field: Field, value: Value)

  /** An effect whose written value has the shape its field holds. */
  type Step = e: Effect | e.Write? ==> Fits(e.field, e.value) witness Skip

  /** The effect of pair `j`. */
  function EffectAt(parts: seq<string>, j: nat): (e: Step)
    requires j < PairCount(parts)
    ensures e.Skip? <==> FieldOfKey(KeyAt(parts, j)).None?
    ensures e.Abort? <==> Rejects(parts, j)
    ensures e.Write? ==> Names(parts, j, e.field) && Decode(e.field, ValueAt(parts, j)) == Some(e.value)
  {
    match FieldOfKey(KeyAt(parts, j))
    case None => Skip
    case Some(f) =>
      match Decode(f, ValueAt(parts, j))
      case None => Abort
      case Some(v) => Write(f, v)
  }

  /** The effects of all pairs, in order. */
  function Effects(parts: seq<string>): (es: seq<Step>)
    ensures |es| == PairCount(parts)
    ensures forall j :: 0 <= j < |es| ==> es[j] == EffectAt(parts, j)
  {
    seq(PairCount(parts), j requires 0 <= j < PairCount(parts) => EffectAt(parts, j))
  }

  /** Applying the effects in order. */
  function Apply(es: seq<Step>, acc: Telemetry): Option<Telemetry>
    decreases |es|
  {
    if |es| == 0 then Some(acc)
    else match es[0]
      case Skip => Apply(es[1..], acc)
      case Abort => None
      case Write(f, v) => Apply(es[1..], acc[f := v])
  }

  /** The pair walk is the in-order application of the pairs' effects. */
  lemma {:induction false} PairsAsEffects(parts: seq<string>, acc: Telemetry)
    ensures ParsePairs(parts, acc) == Apply(Effects(parts), acc)
    decreases |parts|
  {
    if |parts| >= 2 {
      var es := Effects(parts);
      var rest := Effects(parts[2..]);
      assert es[1..] == rest by {
        forall k | 0 <= k < |rest| ensures rest[k] == es[k + 1] {
          assert KeyAt(parts[2..], k) == KeyAt(parts, k + 1);
          assert ValueAt(parts[2..], k) == ValueAt(parts, k + 1);
        }
      }
      assert KeyAt(parts, 0) == parts[0] && ValueAt(parts, 0) == parts[1];
      match FieldOfKey(parts[0])
      case None => PairsAsEffects(parts[2..], acc);
      case Some(f) =>
        match Decode(f, parts[1])
        case None =>
        case Some(v) => PairsAsEffects(parts[2..], acc[f := v]);
    }
  }

  /** Application fails exactly when some effect aborts. */
  lemma {:induction false} ApplyFailsIff(es: seq<Step>, acc: Telemetry)
    ensures Apply(es, acc).None? <==> exists j :: 0 <= j < |es| && es[j].Abort?
    decreases |es|
  {
    if |es| > 0 {
      var next := if es[0].Write? then acc[es[0].field := es[0].value] else acc;
      ApplyFailsIff(es[1..], next);
      assert forall j :: 0 <= j < |es[1..]| ==> es[1..][j] == es[j + 1];
      if exists j :: 0 <= j < |es| && es[j].Abort? {
        var j :| 0 <= j < |es| && es[j].Abort?;
        if j > 0 { assert es[1..][j - 1].Abort?; }
      }
    }
  }

  /** Effect `j` writes field `f`. */
  predicate Writes(es: seq<Step>, j: int, f: Field)
  {
    0 <= j < |es| && es[j].Write? && es[j].field == f
  }

  /** A field no effect writes keeps its starting entry. */
  lemma {:induction false} ApplyUntouched(es: seq<Step>, acc: Telemetry, t: Telemetry, f: Field)
    requires Apply(es, acc) == Some(t)
    requires forall j :: 0 <= j < |es| ==> !Writes(es, j, f)
    ensures Get(t, f) == Get(acc, f)
    decreases |es|
  {
    if |es| > 0 {
      assert !Writes(es, 0, f);
      forall j | 0 <= j < |es[1..]| ensures !Writes(es[1..], j, f) {
        assert !Writes(es, j + 1, f);
      }
      var next := if es[0].Write? then acc[es[0].field := es[0].value] else acc;
      ApplyUntouched(es[1..], next, t, f);
    }
  }

  /** A field holds the value of the last effect that writes it. */
  lemma {:induction false} ApplyLast(es: seq<Step>, acc: Telemetry, t: Telemetry, f: Field, j: nat)
    requires Apply(es, acc) == Some(t)
    requires Writes(es, j, f)
    requires forall k :: j < k < |es| ==> !Writes(es, k, f)
    ensures Get(t, f) == Some(es[j].value)
    decreases |es|
  {
    var next := if es[0].Write? then acc[es[0].field := es[0].value] else acc;
    if j > 0 {
      assert Writes(es[1..], j - 1, f);
      forall k | j - 1 < k < |es[1..]| ensures !Writes(es[1..], k, f) {
        assert !Writes(es, k + 1, f);
      }
      ApplyLast(es[1..], next, t, f, j - 1);
    } else {
      forall k | 0 <= k < |es[1..]| ensures !Writes(es[1..], k, f) {
        assert !Writes(es, k + 1, f);
      }
      ApplyUntouched(es[1..], next, t, f);
    }
  }

  /** Some pair has a recognised key whose value does not convert. */
  predicate SomePairRejects(parts: seq<string>)
  {
    exists j :: 0 <= j < PairCount(parts) && Rejects(parts, j)
  }

  /** `parse_telemetry` raises exactly when some pair of the `'-'`-split string has a
      recognised key whose value does not convert, wherever that pair sits. Only
      `GYR` is guarded, so such a pair names `X`, `Y`, `BAT`, `WIND` or `DUST`. */
  lemma ParseFailsIff(s: string)
    ensures ParseTelemetry(s).None? <==> SomePairRejects(Text.Split(s, '-'))
  {
    var parts := Text.Split(s, '-');
    var es := Effects(parts);
    PairsAsEffects(parts, Empty);
    ApplyFailsIff(es, Empty);
    var fails := Apply(es, Empty).None?;
    assert ParseTelemetry(s).None? == fails;
    if SomePairRejects(parts) {
      var j :| 0 <= j < PairCount(parts) && Rejects(parts, j);
      assert es[j].Abort?;
      assert fails;
    }
    if fails {
      var j :| 0 <= j < |es| && es[j].Abort?;
      assert Rejects(parts, j);
      assert SomePairRejects(parts);
    }
  }

  /** Some pair has the key of field `f`. */
  predicate NamedSomewhere(parts: seq<string>, f: Field)
  {
    exists j :: 0 <= j < PairCount(parts) && Names(parts, j, f)
  }

  /** When some pair names `f`, one of them is the last. */
  lemma {:induction false} LastNamingPair(parts: seq<string>, f: Field, j: nat)
    requires Names(parts, j, f)
    ensures exists k :: j <= k < PairCount(parts) && LastNames(parts, k, f)
    decreases PairCount(parts) - j
  {
    if !LastNames(parts, j, f) {
      var k :| j < k < PairCount(parts) && Names(parts, k, f);
      LastNamingPair(parts, f, k);
    }
  }

  /** A successful parse holds, for a field, the conversion of the value in the LAST
      pair naming it: a repeated key keeps its last value. */
  lemma ParseFieldFromLastPair(s: string, t: Telemetry, f: Field, j: nat)
    requires ParseTelemetry(s) == Some(t)
    requires LastNames(Text.Split(s, '-'), j, f)
    ensures Get(t, f) == Decode(f, ValueAt(Text.Split(s, '-'), j))
  {
    var parts := Text.Split(s, '-');
    var es := Effects(parts);
    PairsAsEffects(parts, Empty);
    assert Apply(es, Empty) == Some(t);
    ApplyFailsIff(es, Empty);
    assert !es[j].Abort?;
    assert Writes(es, j, f);
    forall k | j < k < |es| ensures !Writes(es, k, f) {
      assert !Names(parts, k, f);
    }
    ApplyLast(es, Empty, t, f, j);
  }

  /** A field is present in a successful parse exactly when some pair names it: the
      decoder fills in no defaults. */
  lemma ParseFieldPresence(s: string, t: Telemetry, f: Field)
    requires ParseTelemetry(s) == Some(t)
    ensures f in t <==> NamedSomewhere(Text.Split(s, '-'), f)
  {
    var parts := Text.Split(s, '-');
    var es := Effects(parts);
    PairsAsEffects(parts, Empty);
    assert Apply(es, Empty) == Some(t);
    if NamedSomewhere(parts, f) {
      var j :| 0 <= j < PairCount(parts) && Names(parts, j, f);
      LastNamingPair(parts, f, j);
      var k :| j <= k < PairCount(parts) && LastNames(parts, k, f);
      ParseFieldFromLastPair(s, t, f, k);
      assert Decode(f, ValueAt(parts, k)).Some? by {
        ApplyFailsIff(es, Empty);
        assert !es[k].Abort?;
      }
    } else {
      forall j | 0 <= j < |es| ensures !Writes(es, j, f) {
        assert !Names(parts, j, f);
      }
      ApplyUntouched(es, Empty, t, f);
    }
  }

  /** A number that is non-negative, or a list of non-negative components. */
  predicate NonNegativeValue(v: Value)
  {
    match v
    case Number(n) => n >= 0.0
    case Vector(xs) => forall k :: 0 <= k < |xs| ==> xs[k] >= 0.0
    case Label(_) => true
  }

  /** Every number and gyroscope component is non-negative. */
  predicate NonNegative(t: Telemetry)
  {
    forall f :: f in t ==> NonNegativeValue(t[f])
  }

  /** Applying non-negative writes keeps the dictionary non-negative. */
  lemma {:induction false} ApplyNonNegative(es: seq<Step>, acc: Telemetry)
    requires forall j :: 0 <= j < |es| && es[j].Write? ==> NonNegativeValue(es[j].value)
    requires NonNegative(acc)
    ensures Apply(es, acc).Some? ==> NonNegative(Apply(es, acc).value)
    decreases |es|
  {
    if |es| > 0 {
      assert forall j :: 0 <= j < |es[1..]| ==> es[1..][j] == es[j + 1];
      var next := if es[0].Write? then acc[es[0].field := es[0].value] else acc;
      ApplyNonNegative(es[1..], next);
    }
  }

  /** A value text without a minus sign converts to a non-negative value. */
  lemma DecodeNonNegative(f: Field, value: string)
    requires '-' !in value
    ensures Decode(f, value).Some? ==> NonNegativeValue(Decode(f, value).value)
  {
    if f == Gyroscope { GyroNonNegative(value); }
  }

  /** Because the wire string is split on `'-'`, no token can carry a minus sign, so
      a successful parse never yields a negative number. */
  lemma ParsedValuesNonNegative(s: string)
    ensures ParseTelemetry(s).Some? ==> NonNegative(ParseTelemetry(s).value)
  {
    var parts := Text.Split(s, '-');
    var es := Effects(parts);
    PairsAsEffects(parts, Empty);
    forall j | 0 <= j < |es| && es[j].Write? ensures NonNegativeValue(es[j].value) {
      assert '-' !in parts[2 * j + 1];
      DecodeNonNegative(es[j].field, ValueAt(parts, j));
    }
    ApplyNonNegative(es, Empty);
  }
}

=== FILE: telemetry_examples.dfy ===
/** Worked instances of the decoder's behaviour on whole wire strings. */
module TelemetryExamples {
  import opened Wrappers
  import Text
  import Numbers
  import opened Telemetry

  lemma EmptyString()
    ensures ParseTelemetry("") == Some(Empty)
  {}

  /** Three dash-free tokens joined by dashes split back into those tokens. */
  lemma SplitThree(a: string, b: string, c: string)
    requires '-' !in a && '-' !in b && '-' !in c
    ensures Text.Split(a + "-" + b + "-" + c, '-') == [a, b, c]
  {
    var parts := [a, b, c];
    assert Text.Join(parts[1..], '-') == b + "-" + c;
    assert Text.Join(parts, '-') == a + "-" + b + "-" + c;
    Text.SplitJoin(parts, '-');
  }

  /** A negative number breaks the pairing: in `X--3` the value of `X` is the empty
      token between the two dashes, which is not a number, so the whole parse
      fails. */
  lemma NegativeNumberFails(f: Field, digits: string)
    requires f !in {Gyroscope, SensorStatus}
    requires Numbers.AllDigits(digits)
    ensures ParseTelemetry(KeyOf(f) + "--" + digits) == None
  {
    assert '-' !in digits by {
      forall k | 0 <= k < |digits| ensures digits[k] != '-' { assert Numbers.IsDigit(digits[k]); }
    }
    SplitThree(KeyOf(f), "", digits);
    assert KeyOf(f) + "-" + "" + "-" + digits == KeyOf(f) + "--" + digits;
    assert Text.StripSpace("") == "";
    Text.SplitWithoutSep("", '.');
    assert Decode(f, "") == None;
  }

  /** A `SENS` pair followed by one odd token: the status is written, and the odd
      trailing token (as left over when a minus sign splits a value) is ignored. */
  lemma TrailingTokenIgnored(value: string, rest: string)
    requires '-' !in value && '-' !in rest
    ensures ParseTelemetry(KeyOf(SensorStatus) + "-" + value + "-" + rest)
            == Some(map[SensorStatus := Label(value)])
  {
    var parts := [KeyOf(SensorStatus), value, rest];
    SplitThree(parts[0], value, rest);
    assert FieldOfKey(parts[0]) == Some(SensorStatus);
    assert Decode(SensorStatus, value) == Some(Label(value));
    assert ParsePairs(parts, Empty) == ParsePairs(parts[2..], Empty[SensorStatus := Label(value)]);
    assert Empty[SensorStatus := Label(value)] == map[SensorStatus := Label(value)];
  }
}

=== FILE: text.dfy ===
/** The two Python string operations the telemetry decoder is built on:
    `str.split(sep)` with a one-character separator, and `str.strip(chars)`. */
module Text {

  /** Inverse of `Split`: the pieces glued back together with the separator. */
  function Join(pieces: seq<string>, sep: char): string
  {
    if |pieces| == 0 then ""
    else if |pieces| == 1 then pieces[0]
    else pieces[0] + [sep] + Join(pieces[1..], sep)
  }

  /** Python's `s.split(sep)`: always at least one piece (`"".split('-') == [""]`),
      empty pieces are kept, and gluing the pieces back gives `s`. */
  function Split(s: string, sep: char): (pieces: seq<string>)
    ensures |pieces| >= 1
    ensures Join(pieces, sep) == s
    ensures forall i :: 0 <= i < |pieces| ==> sep !in pieces[i]
    decreases |s|
  {
    if |s| == 0 then [""]
    else
      var rest := Split(s[1..], sep);
      if s[0] == sep then
        assert s == [sep] + s[1..];
        [""] + rest
      else
        var pieces := [[s[0]] + rest[0]] + rest[1..];
        assert |rest| > 1 ==> Join(rest, sep) == rest[0] + [sep] + Join(rest[1..], sep);
        assert pieces[1..] == rest[1..];
        assert s == [s[0]] + s[1..];
        pieces
  }

  /** A string without the separator splits into itself alone. */
  lemma {:induction false} SplitWithoutSep(s: string, sep: char)
    requires sep !in s
    ensures Split(s, sep) == [s]
    decreases |s|
  {
    if |s| > 0 {
      assert sep !in s[1..] by {
        forall k | 0 <= k < |s[1..]| ensures s[1..][k] != sep {
          assert s[1..][k] == s[k + 1];
        }
      }
      SplitWithoutSep(s[1..], sep);
      assert [s[0]] + s[1..] == s;
    }
  }

  /** Splitting `head + sep + tail` peels off `head` as the first piece. */
  lemma {:induction false} SplitPeel(head: string, tail: string, sep: char)
    requires sep !in head
    ensures Split(head + [sep] + tail, sep) == [head] + Split(tail, sep)
    decreases |head|
  {
    var s := head + [sep] + tail;
    if |head| == 0 {
      assert s == [sep] + tail;
      assert s[1..] == tail;
    } else {
      assert s[1..] == head[1..] + [sep] + tail;
      assert sep !in head[1..] by {
        forall k | 0 <= k < |head[1..]| ensures head[1..][k] != sep {
          assert head[1..][k] == head[k + 1];
        }
      }
      SplitPeel(head[1..], tail, sep);
      assert [head[0]] + head[1..] == head;
    }
  }

  /** Round trip the other way: pieces free of the separator are recovered
      exactly from their join, so `Split` is the only such decomposition. */
  lemma {:induction false} SplitJoin(pieces: seq<string>, sep: char)
    requires |pieces| >= 1
    requires forall i :: 0 <= i < |pieces| ==> sep !in pieces[i]
    ensures Split(Join(pieces, sep), sep) == pieces
    decreases |pieces|
  {
    if |pieces| == 1 {
      SplitWithoutSep(pieces[0], sep);
    } else {
      assert forall i :: 0 <= i < |pieces[1..]| ==> sep !in pieces[1..][i] by {
        forall i | 0 <= i < |pieces[1..]| ensures sep !in pieces[1..][i] {
          assert pieces[1..][i] == pieces[i + 1];
        }
      }
      SplitJoin(pieces[1..], sep);
      SplitPeel(pieces[0], Join(pieces[1..], sep), sep);
      assert [pieces[0]] + pieces[1..] == pieces;
    }
  }

  /** A character that does not occur in the joined string occurs in no piece. */
  lemma {:induction false} JoinExcludes(pieces: seq<string>, sep: char, c: char)
    requires c !in Join(pieces, sep)
    ensures forall i :: 0 <= i < |pieces| ==> c !in pieces[i]
    decreases |pieces|
  {
    if |pieces| > 1 {
      var rest := Join(pieces[1..], sep);
      assert Join(pieces, sep) == pieces[0] + [sep] + rest;
      assert c !in pieces[0] by {
        forall k | 0 <= k < |pieces[0]| ensures pieces[0][k] != c {
          assert (pieces[0] + [sep] + rest)[k] == pieces[0][k];
        }
      }
      assert c !in rest by {
        forall k | 0 <= k < |rest| ensures rest[k] != c {
          assert (pieces[0] + [sep] + rest)[|pieces[0]| + 1 + k] == rest[k];
        }
      }
      JoinExcludes(pieces[1..], sep, c);
      forall i | 1 <= i < |pieces| ensures c !in pieces[i] {
        assert pieces[i] == pieces[1..][i - 1];
      }
    }
  }

  /** Python's `s.lstrip(chars)`: drops the longest prefix made of characters of `cs`. */
  function StripLeft(s: string, cs: set<char>): (r: string)
    ensures |r| <= |s| && r == s[|s| - |r|..]
    ensures forall k :: 0 <= k < |s| - |r| ==> s[k] in cs
    ensures |r| > 0 ==> r[0] !in cs
    decreases |s|
  {
    if |s| > 0 && s[0] in cs then StripLeft(s[1..], cs) else s
  }

  /** Python's `s.rstrip(chars)`: drops the longest suffix made of characters of `cs`. */
  function StripRight(s: string, cs: set<char>): (r: string)
    ensures |r| <= |s| && r == s[..|r|]
    ensures forall k :: |r| <= k < |s| ==> s[k] in cs
    ensures |r| > 0 ==> r[|r| - 1] !in cs
    decreases |s|
  {
    if |s| > 0 && s[|s| - 1] in cs then StripRight(s[..|s| - 1], cs) else s
  }

  /** Number of leading characters `Strip(s, cs)` cuts away. */
  function LeadLength(s: string, cs: set<char>): nat
  {
    |s| - |StripLeft(s, cs)|
  }

  /** Right-stripping a left-stripped string: the result is one slice of `s`, and
      what lies after it is the tail of `l`. */
  lemma {:induction false} SliceOfSuffix(s: string, l: string, r: string)
    requires |l| <= |s| && l == s[|s| - |l|..]
    requires |r| <= |l| && r == l[..|r|]
    ensures r == s[|s| - |l|..|s| - |l| + |r|]
    ensures forall k :: |s| - |l| + |r| <= k < |s| ==> s[k] == l[k - (|s| - |l|)]
  {
    var lo := |s| - |l|;
    forall k | 0 <= k < |r| ensures r[k] == s[lo + k] {
      assert r[k] == l[k] == s[lo..][k];
    }
    forall k | lo + |r| <= k < |s| ensures s[k] == l[k - lo] {
      assert s[lo..][k - lo] == s[k];
    }
  }

  /** Python's `s.strip(chars)`: a contiguous slice of `s` whose ends are not in `cs`,
      everything cut away on either side being made of characters of `cs`. */
  function Strip(s: string, cs: set<char>): (r: string)
    ensures LeadLength(s, cs) + |r| <= |s|
    ensures r == s[LeadLength(s, cs)..LeadLength(s, cs) + |r|]
    ensures forall k :: 0 <= k < LeadLength(s, cs) ==> s[k] in cs
    ensures forall k :: LeadLength(s, cs) + |r| <= k < |s| ==> s[k] in cs
    ensures |r| > 0 ==> r[0] !in cs && r[|r| - 1] !in cs
  {
    var l := StripLeft(s, cs);
    var r := StripRight(l, cs);
    SliceOfSuffix(s, l, r);
    r
  }

  /** Stripping only ever removes characters, so a character absent from `s`
      is absent from the result. */
  lemma StripExcludes(s: string, cs: set<char>, c: char)
    ensures c !in s ==> c !in Strip(s, cs)
  {
    var r := Strip(s, cs);
    var lo := LeadLength(s, cs);
    forall k | 0 <= k < |r| ensures r[k] == s[lo + k] {
    }
  }

  /** A string whose first and last characters are outside `cs` is left unchanged. */
  lemma StripKeeps(s: string, cs: set<char>)
    requires |s| > 0 && s[0] !in cs && s[|s| - 1] !in cs
    ensures Strip(s, cs) == s
  {
  }

  /** Stripping removes exactly the surrounding characters of `cs` around a core
      whose two ends are outside `cs`. */
  lemma StripSurrounded(pre: string, core: string, post: string, cs: set<char>)
    requires forall k :: 0 <= k < |pre| ==> pre[k] in cs
    requires forall k :: 0 <= k < |post| ==> post[k] in cs
    requires |core| > 0 && core[0] !in cs && core[|core| - 1] !in cs
    ensures Strip(pre + core + post, cs) == core
  {
    var s := pre + core + post;
    var r := Strip(s, cs);
    var lo := LeadLength(s, cs);
    assert s[|pre|] == core[0];
    assert s[|pre| + |core| - 1] == core[|core| - 1];
    assert lo == |pre| && |r| == |core|;
    assert r == s[|pre|..|pre| + |core|] == core;
  }

  /** The characters Python's `str.isspace` accepts: the ones the argument-less
      `str.strip()` removes. */
  const Whitespace: set<char> := {
    '\t', '\n', '\U{0B}', '\U{0C}', '\r', '\U{1C}', '\U{1D}', '\U{1E}', '\U{1F}', ' ',
    '\U{85}', '\U{A0}', '\U{1680}',
    '\U{2000}', '\U{2001}', '\U{2002}', '\U{2003}', '\U{2004}', '\U{2005}',
    '\U{2006}', '\U{2007}', '\U{2008}', '\U{2009}', '\U{200A}',
    '\U{2028}', '\U{2029}', '\U{202F}', '\U{205F}', '\U{3000}'
  }

  /** Python's argument-less `s.strip()`. */
  function StripSpace(s: string): string
  {
    Strip(s, Whitespace)
  }
}

=== FILE: wrappers.dfy ===
/** The optional value used wherever the client may or may not have something. */
module Wrappers {

  datatype Option<+T> = None | Some(value: T) {

    /** The value, or `default` when there is none (Python's `dict.get(key, default)`). */
    function GetOr(default: T): T {
      match this
      case Some(v) => v
      case None() => default
    }
  }
}
